=== FILE: README.md ===
# Gemini code-analysis app: a verified model of its state machine

`main.py` is a small chat app. The user uploads ZIP archives or single text
files. The app extracts the allow-listed text files into a process-wide
store, keyed by the upload's base name. It then answers questions through a
Gemini chat session. Sessions are keyed by the sorted, comma-joined names
of the artifacts in the store, or `no_files` when the store is empty; an
upload whose extraction is empty never enters the store, so it does not
change the key. The key is not injective: a name containing a comma, or an
artifact named `no_files`, can share a key with a different set of names.
A session is seeded at most once. A session created while files are
stored is seeded with every stored file. A session created over an empty
store is never seeded.
The reply streams back part by part into the transcript.

The model keeps the app's state and replaces its I/O with parameters:

- The store is an insertion-ordered association list, as the Python dict is.
- The session store maps each key to the model name and the log of messages sent to that session.
- The transcript is a sequence of (role, content) entries.
- ZIP parsing, UTF-8 decoding of archive members and text-mode reading of single files are an uninterpreted `Codec`.
- The streamed reply is a sequence of chunks. Each chunk is a sequence of optional text parts.

Modules, in dependency order:

- `Wrappers`: `Option` and `Result`.
- `Text`: prefixes, substrings, decimal rendering, and comma join and split.
- `Paths`: `basename`, `splitext`, and ASCII lower-casing.
- `Ordering`: Python's string order and a sort.
- `Assoc`: the dict.
- `Extract`: the two extractors.
- `Transcript`: entries, `get_message_content` and `user`.
- `Upload`: `upload_zip` and its summaries.
- `SessionKey`: the session key.
- `Sessions`: the MIME table, the seed, create-or-fetch, and sending a prompt.
- `Responder`: `send_to_gemini`, meaning the early exits and the stream fold.
- `Machine`: `reset_app` and the whole app as a sequence of user actions.

## Model

| member | source | states |
|---|---|---|
| Paths.Basename | main.py:111 | The base name holds no `/`, is a suffix of the path, and is preceded by a `/` whenever it is shorter than the path |
| Paths.SplitExt | main.py:78 | Root and extension concatenate back to the name; the extension is non-empty exactly when the last component has a dot after a non-dot character, and then it starts with that dot and holds no other dot or `/` |
| Paths.ExtensionIffDotted | main.py:78 | A path has an extension exactly when its base name has a dot that follows a non-dot character |
| Paths.LowerChars | main.py:78 | Lower-casing maps every character on its own: `A`-`Z` to `a`-`z`, all else unchanged |
| Extract.ListedIsMembership | main.py:80 | The allow-list test is plain membership in the 29 listed extensions |
| Extract.ExtractEntries | main.py:72-88 | The loop over an archive's members: its result never repeats a name; `ExtractedNames` gives exactly which names it keeps and `ExtractedContent` what each one holds |
| Extract.ExtractedNames | main.py:72-80 | A name is a key of a ZIP's extraction exactly when some member has that name, does not end in `/`, and has an allow-listed lower-cased extension |
| Extract.ExtractedContent | main.py:81-88 | The last kept member of a name supplies its text: the decoded bytes, or `Error extracting file: ` and the read error |
| Extract.ExtractZip | main.py:71-90 | An unreadable upload or an unopenable archive is an error; otherwise the result is the extraction of its members |
| Extract.ExtractSingle | main.py:110-122 | A single file yields nothing, or exactly its base name mapped to its text or to `Error reading file: ` and the error; it yields the entry exactly when the extension is allow-listed |
| Upload.ExtractUpload | main.py:150-155 | Only a `.zip` upload can fail to extract; a single file never does |
| Upload.KindOf | main.py:146-150 | An artifact is an archive exactly when the lower-cased extension of its base name is `.zip`; every other artifact, including one with no extension, is a text file. The single-file branch at main.py:182-186 applies the same test |
| Upload.PrepareAll | main.py:145-155 | Every uploaded file becomes one artifact under its base name, with its kind chosen by a lower-cased `.zip` extension |
| Upload.PutKeepsInv | main.py:160 | Writing a well-formed extraction keeps the store's names unique and every entry non-empty |
| Upload.IngestAll | main.py:145-162 | The upload loop keeps the store's names unique; `IngestCounts`, `IngestLastWriteWins`, `IngestLeavesOthers` and `IngestInterrupted` characterise its tallies and its writes |
| Upload.IngestCounts | main.py:139-162 | The upload loop finishes exactly when every archive opens; then `processed` is the number of files, `extracted` is the sum of the extraction sizes, and the kinds are those uploaded |
| Upload.IngestLastWriteWins | main.py:157-160 | The last non-empty extraction under a base name is what the store holds for it: a write replaces, never merges |
| Upload.IngestLeavesOthers | main.py:157-160 | A name that no non-empty extraction was written under keeps its earlier entry, or its absence |
| Upload.IngestInterrupted | main.py:145-162 | The loop stops at the first archive that cannot be opened, and keeps the writes made before it |
| Upload.LabelOf | main.py:165-169 | The batch label is `files` exactly when ZIP and non-ZIP files were mixed, and `ZIP files` exactly when only archives were uploaded |
| Upload.UploadFiles | main.py:125-208 | The store stays well formed; no files leave everything unchanged; the upload fails exactly when some archive cannot be opened |
| Upload.UploadArtifacts | main.py:139-208 | A completed upload of at least one file always produces a summary |
| Upload.Announce | main.py:174-177 | A summary appends exactly one user entry holding its text, and earlier entries are untouched |
| Upload.BatchSummaryCounts | main.py:139-177 | For two or more files, the summary reports every file as processed, the total of extracted files, and every base name in upload order |
| Upload.BatchSummaryLabel | main.py:164-169 | For two or more files, the summary's label says `files` only for a mix of kinds |
| Upload.SingleSummary | main.py:180-203 | For one file, the summary names the file and its kind, reports no content exactly when nothing was extracted, and otherwise lists the extracted names |
| Upload.SingleStore | main.py:193-206 | For one file, an empty extraction leaves the store unchanged, and a non-empty one is written under the base name |
| Upload.Render | main.py:176-202 | The summary entry's text reproduces the three f-strings at main.py:176, 196 and 202 character for character: the batch summary, the one-file summary with nothing extracted, and the one-file summary listing the extracted names. `SingleRecognized`, `MixedRecognized` and `BatchRecognizedOnlyMixed` state which of these texts carry an upload marker |
| Assoc.PutGet | main.py:160 | After writing `k`, reading `k` gives the new value and every other key reads as before |
| Assoc.PutKeys | main.py:160 | Writing an existing key keeps the key order; a new key is appended last |
| Ordering.Sort | main.py:275 | Sorting gives a sorted permutation of the names |
| Ordering.SortedUnique | main.py:275 | Two sorted permutations of the same names are equal |
| Ordering.BelowTotal | main.py:275 | Any two strings are comparable in the lexicographic order |
| Ordering.BelowTransitive | main.py:275 | The lexicographic order is transitive |
| Text.SplitJoin | main.py:275 | Splitting a comma-join of comma-free names at commas gives the names back |
| Text.DecimalRoundTrip | main.py:176 | The decimal rendering of a count reads back as that count |
| SessionKey.KeyOf | main.py:274-277 | The session key of a store; `KeyDependsOnlyOnNames` and `KeyIdentifiesNames` characterise it, and `CommaCollision` and `NoFilesCollision` show where it fails to be injective |
| SessionKey.KeyDependsOnlyOnNames | main.py:274-277 | Stores with the same set of names have the same key, whatever the upload order or the contents |
| SessionKey.KeyIdentifiesNames | main.py:274-277 | For comma-free names, none of them `no_files`, two stores share a key exactly when they hold the same names |
| SessionKey.CommaCollision | main.py:275 | A store holding only the name `a,b` gets the same key, `a,b`, as a store holding the names `a` and `b`, although the two name sets differ |
| SessionKey.NoFilesCollision | main.py:274-277 | An artifact named `no_files` gets the key of the empty store |
| Sessions.MimeType | main.py:290-307 | The MIME type chosen from a lower-cased extension; `MimeTypeMatchesTable` gives it as a table of 11 extensions with `text/plain` for every other one |
| Sessions.MimeTypeMatchesTable | main.py:290-307 | The branch chain gives each of the 11 listed extensions its type, and any other extension `text/plain` |
| Sessions.AllowListSkipsJsonlSvg | main.py:304-307 | No allow-listed name has the extension `.jsonl` or `.svg`, so those two table rows never apply to an extracted file |
| Sessions.FilePart | main.py:290-318 | The part for one extracted file holds `File: `, the name, a blank line and the content, tagged with the MIME type of its lower-cased extension as `MimeTypeMatchesTable` gives it |
| Sessions.SeedParts | main.py:287-318 | The parts sent as the seed, one `FilePart` per (artifact, file) pair; `SeedPartsComplete`, `SeedPartsSound` and `SeedPartsCount` characterise it: every pair has its part, in store order then file order, every part comes from a pair, and there is exactly one part per pair |
| Sessions.SeedPartsComplete | main.py:288-318 | Every (artifact, file) pair has a part in the seed, in store order then file order, holding `File: `, the name, a blank line and the content, tagged by extension |
| Sessions.SeedPartsSound | main.py:288-318 | Every part of the seed comes from some (artifact, file) pair |
| Sessions.SeedPartsCount | main.py:288-318 | The seed has exactly one part per (artifact, file) pair |
| Sessions.NewSession | main.py:282-326 | A new session is created on the model name; `NewSessionSeed` states when and with what it is seeded |
| Sessions.NewSessionSeed | main.py:280-327 | A new session gets the model name; it is seeded exactly when the store is non-empty, and then once, with every file followed by the note |
| Sessions.OpenSession | main.py:280-284 | An existing session is reused untouched; otherwise exactly one new session is added under the key, and all others are kept |
| Sessions.SendPrompt | main.py:333 | The prompt is appended to the key's log after everything sent before, and no other session changes |
| Sessions.SeedOnce | main.py:280 | Opening a key a second time changes nothing, whatever the store then holds |
| Sessions.OpenKeepsInv | main.py:280-327 | Opening keeps every session on the model name, with a seed only as its first message |
| Sessions.SendKeepsInv | main.py:333 | Sending a prompt keeps every session on the model name, with a seed only as its first message |
| Transcript.ContentOfEntry | main.py:238 | Reading the content back out of an entry's (role, content) tuple gives the entry's content, which is how the prompt is taken from the latest user entry |
| Transcript.LastUserPrompt | main.py:259-266 | The prompt to answer; `LastUserPromptSpec` characterises it without the filtered list |
| Transcript.LastUserPromptSpec | main.py:259-266 | There is no prompt exactly when no entry has the user role; otherwise the prompt is the content of the latest user entry |
| Transcript.AssistantEntryKeepsPrompt | main.py:259-266 | Appending an assistant entry leaves the prompt to answer unchanged: only user entries are looked at |
| Transcript.Submit | main.py:223-225 | The text box is cleared; empty text leaves the transcript alone; other text is appended as a user entry and becomes the latest prompt |
| Responder.StreamFold | main.py:335-348 | The loop leaves the final transcript, and yields one snapshot per text part, the k-th holding the first k+1 texts run together |
| Responder.StreamedGrowing | main.py:335-348 | Every snapshot keeps the earlier entries, its last entry's text is a prefix of every later one's, and the final transcript is the last snapshot |
| Responder.StreamedEnd | main.py:330-348 | The final last entry holds every text part run together; with no text part, the empty placeholder remains |
| Responder.StreamedExample | main.py:337-341 | A part without text and a chunk without parts add nothing: `Hel`, none, then `lo` yield `Hel` and `Hello` |
| Responder.SingleRecognized | main.py:269 | Every one-file summary carries its kind's upload marker, whatever the file name |
| Responder.MixedRecognized | main.py:269 | The mixed batch summary carries the batch marker |
| Responder.BatchRecognizedOnlyMixed | main.py:269 | A batch summary over marker-free names carries a marker exactly when its label is `files` |
| Responder.IsUploadPrompt | main.py:269 | A prompt is taken for an upload summary exactly when it contains one of the three markers; `SingleRecognized`, `MixedRecognized` and `BatchRecognizedOnlyMixed` state which summaries it recognises, and the single-kind batch summaries it misses |
| Responder.Answered | main.py:273-348 | Past the early exits, the transcript gains one assistant entry holding every streamed text, one snapshot is yielded per text part, and the key's session exists; `RespondSessions` and `RespondYields` give the sessions and the yields |
| Responder.Respond | main.py:254-348 | Exactly one assistant entry is added: the guidance when there is no user entry, the canned reply after an upload summary, and otherwise the whole streamed text; the sessions change only in the last case |
| Responder.Answer | main.py:241-351 | Running the loop over the stream computes the same reply, sessions and snapshots as the stated response |
| Responder.RespondTouchesSessions | main.py:254-333 | The session store changes exactly when the latest user entry exists and is not an upload summary |
| Responder.RespondSessions | main.py:273-333 | An answered prompt is appended to the current key's existing session, or to a new session after its seed; no other session changes |
| Responder.RespondKeepsInv | main.py:273-333 | Answering keeps every session on the model name, with a seed only as its first message |
| Responder.RespondYields | main.py:330-348 | Each yielded transcript extends the conversation by one assistant entry whose text only grows; the last one yielded is the final transcript |
| Responder.SummaryNotSent | main.py:268-271 | A one-file or mixed-batch summary gets the canned reply, and no session is touched |
| Responder.SingleKindBatchSent | main.py:165-176 | A summary of only ZIP files or only text files is sent to the session as a question: its text is the last prompt in the current key's log, and the streamed reply is appended as the assistant entry |
| Machine.ResetApp | main.py:367-371 | Both stores are emptied, the transcript becomes the single reset note, and the key falls back to `no_files` |
| Machine.SendStep | main.py:413-436 | Send and Enter run `user` and then `send_to_gemini` on its transcript: the store is unchanged, and the transcript gains exactly one assistant entry past what `user` left; `Transcript.Submit` and `Responder.Respond` state what each of the two steps does |
| Machine.UploadStep | main.py:125-208 | A failed upload leaves the transcript alone; a completed upload of at least one file adds exactly one user entry; sessions are never touched |
| Machine.StepKeepsInv | main.py:125-371 | Every user action keeps the store well formed and every session well shaped |
| Machine.ReachableInv | main.py:125-371 | Every state reachable from start-up keeps the invariant |
| Machine.StepExtendsLogs | main.py:280-333 | Short of a reset, an existing session keeps its model, and its log only gains at most one prompt |
| Machine.StaleSeedKept | main.py:280-333 | After a re-upload under the same names, the existing session gets only the new prompt and no fresh seed |
| Machine.EmptySendRepeats | main.py:223-266 | Sending an empty text box sends the previous prompt to the session again |
| Machine.ResetThenSend | main.py:274-333 | After a reset, the next answered message opens an unseeded `no_files` session holding only that prompt |

## Left out

- The Gradio layout, the event wiring and `launch` (main.py:375-461) are presentation only. `Machine.Step` stands for the wiring: Send and Enter run `user` and then `send_to_gemini`.
- `load_dotenv`, the API-key check and the client construction (main.py:10-19) are environment setup.
- ZIP parsing, filesystem reads and UTF-8 decoding with replacement are the `Codec` parameter, which is left uninterpreted. Archive members are decoded from raw bytes (main.py:83), while a single file is read in text mode (main.py:116), which also translates `\r\n` and `\r` to `\n`. The two are separate `Codec` fields, so the same bytes may give different text, but the newline translation itself is not spelled out. Every read error of a single file becomes the diagnostic entry.
- The Gemini chat API is left out. A session is the model name plus the log of what it was sent, and the reply is a given stream. Upstream failures and the network are not modelled.
- A streamed chunk whose first candidate has no content (main.py:338 reads `content.parts` on it) makes the stream loop raise partway through, after the earlier snapshots were yielded. This is not modelled: a chunk is either its first candidate's parts or empty, for no candidate or no parts.
- Part data is kept as text. Its UTF-8 encoding at main.py:315 is not modelled.
- Generator scheduling and concurrent access to the two global dicts are left out. Calls are sequential. The early exits of `send_to_gemini` return a transcript and yield nothing.
- Machine.SendStep: `send_to_gemini` is a generator, and Gradio updates the chatbot only with what a generator yields, not with what it returns. After an early exit, or a reply with no text part, the displayed transcript therefore stays the one `user` produced, while `SendStep` keeps the returned transcript with its extra assistant entry. Only assistant entries differ, so the prompt answered next (`Transcript.AssistantEntryKeepsPrompt`) and every session stay the same.
- `upload_zip` called with `files=None` raises on `len(None)` before doing anything. This path is not modelled: an upload is always a list, possibly empty.
- Paths.LowerChars: lower-casing is ASCII-only. Python's `str.lower` also maps non-ASCII letters.
- Sessions.SendPrompt: the model records that the prompt was sent. It does not record what the chat service keeps of the reply.
- Responder.StreamedGrowing: the growth is stated as a (non-strict) prefix. An empty text part yields a snapshot identical to the previous one.
- SessionKey.KeyIdentifiesNames: the key is proved to identify the names only for comma-free names that are not `no_files`. `CommaCollision` and `NoFilesCollision` show that the key is not injective in general.

Points where the code was followed rather than its own description:

- A ZIP that cannot be opened raises out of `upload_zip`. Nothing around `zipfile.ZipFile` catches it. So the batch stops there, the store keeps the writes made before it, and no summary is added.
- The batch marker that main.py:269 looks for only matches the summary of a mixed batch. A batch of ZIP files only, or of text files only, is answered as if its summary were a question (`Responder.SingleKindBatchSent`). The model reproduces this.

=== FILE: app.dfy ===
/**
 * The app as a sequential state machine: the store of uploaded artifacts,
 * the chat sessions and the transcript, moved by the four user actions
 * (send a message, upload files, reset) in the order they happen.
 */
module Machine {
  import opened Wrappers
  import opened Assoc
  import opened Transcript
  import opened Extract
  import opened Upload
  import opened SessionKey
  import opened Sessions
  import opened Responder

  /** The transcript's only entry after a reset. */
  const ResetNote: string := "App has been reset. You can start a new conversation or upload new files."

  /** Everything the app remembers between actions. */
  datatype App = App(store: Store, sessions: SessionMap, transcript: Transcript)

  /**
   * What the user can do: send the text box (the reply streams from the
   * given chunks), upload files (read through the given codec), or reset.
   */
  datatype Action =
    | Send(text: string, stream: Stream)
    | UploadBatch(files: seq<UploadedFile>, codec: Codec)
    | Reset

  /** The state at start-up: nothing uploaded, no session, an empty transcript. */
  const Init: App := App([], map[], [])

  /** The state every reachable app is in. */
  predicate AppInv(a: App)
  {
    StoreInv(a.store) && SessionsInv(a.sessions)
  }

  /** `reset_app`: both stores emptied and the transcript replaced by the reset note. */
  function ResetApp(a: App): (r: App)
    ensures |r.store| == 0 && r.sessions == map[]
    ensures r.transcript == [Entry(Assistant, ResetNote)]
    ensures KeyOf(r.store) == NoFilesKey
  {
    App([], map[], [Entry(Assistant, ResetNote)])
  }

  /**
   * `upload_zip`: a completed upload takes the new store and announces its
   * summary; an upload that stops at an archive that cannot be opened keeps
   * the store writes made before it and leaves the transcript as it was.
   */
  function UploadStep(a: App, files: seq<UploadedFile>, codec: Codec): (r: App)
    requires StoreInv(a.store)
    ensures StoreInv(r.store)
    ensures r.sessions == a.sessions
    ensures |files| == 0 ==> r == a
    ensures (exists i | 0 <= i < |files| :: ExtractUpload(files[i], codec).Failure?) ==> r.transcript == a.transcript
    ensures (forall i | 0 <= i < |files| :: ExtractUpload(files[i], codec).Success?) && |files| > 0 ==>
              |r.transcript| == |a.transcript| + 1 && r.transcript[..|a.transcript|] == a.transcript
              && r.transcript[|a.transcript|].role == User
  {
    var out := UploadFiles(a.store, files, codec);
    App(out.store, a.sessions, if out.Uploaded? then Announce(a.transcript, out.summary) else a.transcript)
  }

  /** Send and Enter: `user` adds the typed text, then `send_to_gemini` answers the latest user entry. */
  function SendStep(a: App, text: string, stream: Stream): (r: App)
    ensures r.store == a.store
    ensures |r.transcript| == |Submit(text, a.transcript).1| + 1
  {
    var t := Submit(text, a.transcript).1;
    var reply := Respond(t, a.store, a.sessions, stream);
    App(a.store, reply.sessions, reply.transcript)
  }

  /** One user action. */
  function Step(a: App, act: Action): App
    requires StoreInv(a.store)
  {
    match act
    case Send(text, stream) => SendStep(a, text, stream)
    case UploadBatch(files, codec) => UploadStep(a, files, codec)
    case Reset => ResetApp(a)
  }

  /** Every action keeps the app's invariant. */
  lemma StepKeepsInv(a: App, act: Action)
    requires AppInv(a)
    ensures AppInv(Step(a, act))
  {
    match act
    case Send(text, stream) =>
      RespondKeepsInv(Submit(text, a.transcript).1, a.store, a.sessions, stream);
    case UploadBatch(files, codec) =>
    case Reset =>
  }

  /** A run of actions from `a`, in order; every state along the way keeps the invariant. */
  function Run(a: App, acts: seq<Action>): (r: App)
    requires AppInv(a)
    ensures AppInv(r)
  {
    if |acts| == 0 then a
    else
      var before := Run(a, acts[..|acts| - 1]);
      StepKeepsInv(before, acts[|acts| - 1]);
      Step(before, acts[|acts| - 1])
  }

  /** Every state reachable from start-up keeps the invariant. */
  lemma ReachableInv(acts: seq<Action>)
    ensures AppInv(Run(Init, acts))
  {
    assert AppInv(Init);
  }

  /**
   * A session is never reseeded and never loses what it was sent: short of
   * a reset, every action leaves an existing session with the same model
   * and a log that extends its old one by at most one prompt.
   */
  lemma StepExtendsLogs(a: App, act: Action, k: string)
    requires AppInv(a) && !act.Reset? && k in a.sessions
    ensures var r := Step(a, act);
      var old_log := a.sessions[k].log;
      && k in r.sessions && r.sessions[k].model == a.sessions[k].model
      && var log := r.sessions[k].log;
         log == old_log || (|log| == |old_log| + 1 && log[..|old_log|] == old_log && log[|old_log|].Prompt?)
  {
    if act.Send? {
      var t := Submit(act.text, a.transcript).1;
      if Answers(t) {
        var prompt := LastUserPrompt(t).value;
        RespondSessions(t, a.store, a.sessions, act.stream, prompt);
        var log := Step(a, act).sessions[k].log;
        if k == KeyOf(a.store) {
          assert log == a.sessions[k].log + [Prompt(prompt)];
        }
      }
    }
  }

  /**
   * Re-uploading changes what a new session would be seeded with, but not a
   * session that already exists for the key: the next answered message only
   * appends its prompt to that session's log.
   */
  lemma StaleSeedKept(a: App, files: seq<UploadedFile>, codec: Codec, text: string, stream: Stream)
    requires AppInv(a) && text != ""
    requires !IsUploadPrompt(text)
    requires var b := UploadStep(a, files, codec); KeyOf(b.store) in a.sessions
    ensures var b := UploadStep(a, files, codec);
      var key := KeyOf(b.store);
      SendStep(b, text, stream).sessions[key] == Session(a.sessions[key].model, a.sessions[key].log + [Prompt(text)])
  {
    var b := UploadStep(a, files, codec);
    var t := Submit(text, b.transcript).1;
    RespondSessions(t, b.store, b.sessions, stream, text);
  }

  /**
   * Sending an empty text box adds no user entry, so the previous prompt is
   * answered again and sent to the session a second time.
   */
  lemma EmptySendRepeats(a: App, stream: Stream, prompt: string)
    requires LastUserPrompt(a.transcript) == Some(prompt) && !IsUploadPrompt(prompt)
    requires KeyOf(a.store) in a.sessions
    ensures var key := KeyOf(a.store);
      SendStep(a, "", stream).sessions[key].log == a.sessions[key].log + [Prompt(prompt)]
  {
    RespondSessions(a.transcript, a.store, a.sessions, stream, prompt);
  }

  /** After a reset the next answered message opens the `no_files` session, created without a seed. */
  lemma ResetThenSend(a: App, text: string, stream: Stream)
    requires text != "" && !IsUploadPrompt(text)
    ensures var r := SendStep(ResetApp(a), text, stream);
      r.sessions == map[NoFilesKey := Session(ModelName, [Prompt(text)])]
  {
    var b := ResetApp(a);
    var t := Submit(text, b.transcript).1;
    RespondSessions(t, b.store, b.sessions, stream, text);
    var r := SendStep(b, text, stream);
    assert NewSession([]).log == [];
    assert r.sessions.Keys == {NoFilesKey};
  }
}

=== FILE: assoc.dfy ===
/**
 * Python `dict` with string keys, as an insertion-ordered association list:
 * iteration follows first insertion, and assigning to a present key keeps its
 * position.
 */
module Assoc {
  import opened Wrappers
  import Ordering

  type Assoc<V> = seq<(string, V)>

  /** `list(d.keys())`. */
  function Keys<V>(a: Assoc<V>): (ks: seq<string>)
    ensures |ks| == |a|
    ensures forall i :: 0 <= i < |a| ==> ks[i] == a[i].0
  {
    if |a| == 0 then [] else [a[0].0] + Keys(a[1..])
  }

  /** The invariant every Python dict keeps: no key twice. */
  predicate UniqueKeys<V>(a: Assoc<V>)
  {
    forall i, j :: 0 <= i < j < |a| ==> a[i].0 != a[j].0
  }

  lemma UniqueKeysDistinct<V>(a: Assoc<V>)
    requires UniqueKeys(a)
    ensures Ordering.Distinct(Keys(a))
  {
  }

  /** `d.get(k)`. */
  function Get<V>(a: Assoc<V>, k: string): (r: Option<V>)
    ensures r.None? <==> k !in Keys(a)
    ensures r.Some? ==> exists i :: 0 <= i < |a| && a[i] == (k, r.value)
  {
    if |a| == 0 then None
    else if a[0].0 == k then Some(a[0].1)
    else
      var r := Get(a[1..], k);
      assert Keys(a) == [a[0].0] + Keys(a[1..]);
      r
  }

  /** With unique keys, the entry at position `i` is what `Get` finds for its key. */
  lemma GetAt<V>(a: Assoc<V>, i: int)
    requires UniqueKeys(a) && 0 <= i < |a|
    ensures Get(a, a[i].0) == Some(a[i].1)
  {
    if i > 0 {
      GetAt(a[1..], i - 1);
    }
  }

  /** `d[k] = v`: replace in place when `k` is present, append otherwise. */
  function Put<V>(a: Assoc<V>, k: string, v: V): Assoc<V>
  {
    if |a| == 0 then [(k, v)]
    else if a[0].0 == k then [(k, v)] + a[1..]
    else [a[0]] + Put(a[1..], k, v)
  }

  /** Assignment keeps the key order: a present key stays where it is, a new one goes last. */
  lemma {:induction false} PutKeys<V>(a: Assoc<V>, k: string, v: V)
    ensures k in Keys(a) ==> Keys(Put(a, k, v)) == Keys(a)
    ensures k !in Keys(a) ==> Keys(Put(a, k, v)) == Keys(a) + [k]
  {
    if |a| > 0 {
      assert Keys(a) == [a[0].0] + Keys(a[1..]);
      if a[0].0 == k {
        assert Keys(Put(a, k, v)) == [k] + Keys(a[1..]);
      } else {
        PutKeys(a[1..], k, v);
        assert Keys(Put(a, k, v)) == [a[0].0] + Keys(Put(a[1..], k, v));
      }
    }
  }

  /** Assignment keeps keys unique. */
  lemma {:induction false} PutUnique<V>(a: Assoc<V>, k: string, v: V)
    requires UniqueKeys(a)
    ensures UniqueKeys(Put(a, k, v))
  {
    if |a| > 0 && a[0].0 != k {
      var rest := Put(a[1..], k, v);
      PutUnique(a[1..], k, v);
      PutKeys(a[1..], k, v);
      assert a[0].0 !in Keys(a[1..]) by {
        forall i | 0 <= i < |a[1..]| ensures Keys(a[1..])[i] != a[0].0 {
          assert a[1..][i] == a[i + 1];
        }
      }
      assert a[0].0 !in Keys(rest);
      var r := Put(a, k, v);
      assert r == [a[0]] + rest;
      forall i, j | 0 <= i < j < |r| ensures r[i].0 != r[j].0 {
        if i == 0 {
          assert r[j].0 == Keys(rest)[j - 1];
        } else {
          assert r[i] == rest[i - 1] && r[j] == rest[j - 1];
        }
      }
    }
  }

  /** After `d[k] = v`, looking up `k` gives `v` and every other key is untouched. */
  lemma {:induction false} PutGet<V>(a: Assoc<V>, k: string, v: V, k': string)
    ensures Get(Put(a, k, v), k') == if k' == k then Some(v) else Get(a, k')
  {
    if |a| > 0 && a[0].0 != k {
      PutGet(a[1..], k, v, k');
    }
  }
}

=== FILE: extract.dfy ===
/**
 * The extractors: from a ZIP archive or a single uploaded file to the text
 * files it holds, filtered through the extension allow-list.
 */
module Extract {
  import opened Wrappers
  import opened Text
  import opened Paths
  import opened Assoc

  type Bytes = seq<bv8>

  /** Extracted files of one artifact: file name to decoded text (or a diagnostic). */
  type FileSet = Assoc<string>

  /** The allow-list of text-like extensions, compared after lower-casing. */
  const TextExtensions: seq<string> := [
    ".bat", ".c", ".cfg", ".conf", ".cpp", ".cs", ".css", ".go", ".h", ".html",
    ".ini", ".java", ".js", ".json", ".jsx", ".md", ".php", ".ps1", ".py", ".rb",
    ".rs", ".sh", ".toml", ".ts", ".tsx", ".txt", ".xml", ".yaml", ".yml"
  ]

  /** One member of a ZIP archive: its recorded name and what reading it yields. */
  datatype ZipEntry = ZipEntry(filename: string, data: Result<Bytes>)

  /**
   * The foreign operations the extractors rely on, left uninterpreted:
   * UTF-8 decoding of raw bytes with replacement of invalid bytes (which
   * never fails), as an archive member is read; reading a file in text mode,
   * which decodes the same way and also turns `\r\n` and `\r` into `\n`, so
   * the two may give different text for the same bytes; and opening bytes as
   * a ZIP archive (its members in `infolist` order, or the error `zipfile`
   * raises).
   */
  datatype Codec = Codec(decode: Bytes -> string, readText: Bytes -> string, unzip: Bytes -> Result<seq<ZipEntry>>)

  /** The lower-cased extension of a name is on the allow-list. */
  predicate IsTextName(name: string)
  {
    Listed(Lower(Ext(name)), TextExtensions)
  }

  /** Python's `x in xs` on a list of strings, spelled out one element at a time. */
  predicate Listed(x: string, xs: seq<string>)
  {
    |xs| > 0 && (xs[0] == x || Listed(x, xs[1..]))
  }

  lemma {:induction false} ListedIsMembership(x: string, xs: seq<string>)
    ensures Listed(x, xs) <==> x in xs
  {
    if |xs| > 0 {
      ListedIsMembership(x, xs[1..]);
      assert xs == [xs[0]] + xs[1..];
    }
  }

  /** An archive member that is extracted: not a directory, and allow-listed. */
  predicate Kept(name: string)
  {
    !EndsWith(name, "/") && IsTextName(name)
  }

  /** What a kept archive member maps to: its decoded text, or a diagnostic naming the read error. */
  function EntryText(e: ZipEntry, decode: Bytes -> string): string
  {
    match e.data
    case Success(b) => decode(b)
    case Failure(msg) => "Error extracting file: " + msg
  }

  /** No later member of the archive carries the same name as member `i`. */
  predicate LastOfName(entries: seq<ZipEntry>, i: int)
    requires 0 <= i < |entries|
  {
    forall j | i < j < |entries| :: entries[j].filename != entries[i].filename
  }

  /**
   * The loop over `infolist()`, with its filter and the text it stores for a
   * member as parameters: every member passing `keep` is written under its
   * name, a later member of the same name overwriting an earlier one.
   */
  function Collect(entries: seq<ZipEntry>, keep: string -> bool, text: ZipEntry -> string): (r: FileSet)
    ensures UniqueKeys(r)
  {
    if |entries| == 0 then []
    else
      var e := entries[|entries| - 1];
      var r0 := Collect(entries[..|entries| - 1], keep, text);
      if keep(e.filename) then PutUnique(r0, e.filename, text(e)); Put(r0, e.filename, text(e)) else r0
  }

  lemma {:induction false} CollectNames(entries: seq<ZipEntry>, keep: string -> bool, text: ZipEntry -> string, k: string)
    ensures k in Keys(Collect(entries, keep, text)) <==> exists i | 0 <= i < |entries| :: entries[i].filename == k && keep(k)
  {
    if |entries| > 0 {
      var prefix := entries[..|entries| - 1];
      CollectNames(prefix, keep, text, k);
      var e := entries[|entries| - 1];
      PutKeys(Collect(prefix, keep, text), e.filename, text(e));
      if exists i | 0 <= i < |prefix| :: prefix[i].filename == k && keep(k) {
        var i :| 0 <= i < |prefix| && prefix[i].filename == k && keep(k);
        assert entries[i] == prefix[i];
      }
      if exists i | 0 <= i < |entries| :: entries[i].filename == k && keep(k) {
        var i :| 0 <= i < |entries| && entries[i].filename == k && keep(k);
        if i < |prefix| {
          assert prefix[i] == entries[i];
        }
      }
    }
  }

  lemma {:induction false} CollectContent(entries: seq<ZipEntry>, keep: string -> bool, text: ZipEntry -> string, i: int)
    requires 0 <= i < |entries| && keep(entries[i].filename) && LastOfName(entries, i)
    ensures Get(Collect(entries, keep, text), entries[i].filename) == Some(text(entries[i]))
  {
    var prefix := entries[..|entries| - 1];
    var e := entries[|entries| - 1];
    var r0 := Collect(prefix, keep, text);
    if i == |prefix| {
      PutGet(r0, e.filename, text(e), e.filename);
    } else {
      assert prefix[i] == entries[i];
      assert e.filename != entries[i].filename;
      assert LastOfName(prefix, i) by {
        forall j | i < j < |prefix|
          ensures prefix[j].filename != prefix[i].filename
        {
          assert prefix[j] == entries[j];
        }
      }
      CollectContent(prefix, keep, text, i);
      if keep(e.filename) {
        PutGet(r0, e.filename, text(e), entries[i].filename);
      }
    }
  }

  /** The loop over the archive's members in `extract_text_from_zip`. */
  function ExtractEntries(entries: seq<ZipEntry>, decode: Bytes -> string): (r: FileSet)
    ensures UniqueKeys(r)
  {
    Collect(entries, Kept, e => EntryText(e, decode))
  }

  /** Some member of `entries` is kept and named `k`. */
  predicate HasKeptMember(entries: seq<ZipEntry>, k: string)
  {
    exists i | 0 <= i < |entries| :: entries[i].filename == k && Kept(k)
  }

  /** The extracted names are exactly the names of the kept members: directories and other extensions are dropped, nothing else is. */
  lemma ExtractedNames(entries: seq<ZipEntry>, decode: Bytes -> string, k: string)
    ensures k in Keys(ExtractEntries(entries, decode)) <==> HasKeptMember(entries, k)
  {
    CollectNames(entries, Kept, e => EntryText(e, decode), k);
  }

  /** A kept member's name maps to its text (or diagnostic) unless a later member of that name overwrote it. */
  lemma ExtractedContent(entries: seq<ZipEntry>, decode: Bytes -> string, i: int)
    requires 0 <= i < |entries| && Kept(entries[i].filename) && LastOfName(entries, i)
    ensures Get(ExtractEntries(entries, decode), entries[i].filename) == Some(EntryText(entries[i], decode))
  {
    CollectContent(entries, Kept, e => EntryText(e, decode), i);
  }

  /**
   * `extract_text_from_zip`: an archive that cannot be opened raises (nothing
   * catches it); otherwise its kept members are extracted.
   */
  function ExtractZip(data: Result<Bytes>, codec: Codec): (r: Result<FileSet>)
    ensures data.Failure? ==> r == Failure(data.error)
    ensures data.Success? && codec.unzip(data.value).Failure? ==> r.Failure?
    ensures data.Success? && codec.unzip(data.value).Success? ==>
              r == Success(ExtractEntries(codec.unzip(data.value).value, codec.decode))
  {
    match data
    case Failure(msg) => Failure(msg)
    case Success(bytes) =>
      match codec.unzip(bytes)
      case Failure(msg) => Failure(msg)
      case Success(entries) => Success(ExtractEntries(entries, codec.decode))
  }

  /** What a single allow-listed file maps to: its text as read in text mode, or a diagnostic naming the read error. */
  function ReadText(data: Result<Bytes>, read: Bytes -> string): string
  {
    match data
    case Success(b) => read(b)
    case Failure(msg) => "Error reading file: " + msg
  }

  /**
   * `extract_text_from_single_file`: nothing for a name off the allow-list,
   * otherwise exactly one file under the base name; a read error never escapes.
   */
  function ExtractSingle(path: string, data: Result<Bytes>, read: Bytes -> string): (r: FileSet)
    ensures r == [] || r == [(Basename(path), ReadText(data, read))]
    ensures r != [] <==> IsTextName(Basename(path))
  {
    var filename := Basename(path);
    if IsTextName(filename) then [(filename, ReadText(data, read))] else []
  }

  /** A single file's entry passes the archive filter too: a base name never ends in a slash. */
  lemma SingleKept(path: string, data: Result<Bytes>, read: Bytes -> string)
    ensures ExtractSingle(path, data, read) != [] ==> Kept(Basename(path))
  {
  }

}

=== FILE: ordering.dfy ===
/**
 * Python's ordering of `str` values (code point by code point, a proper prefix
 * first) and `sorted` on a list of strings.
 */
module Ordering {

  /** `a <= b` on Python strings. */
  predicate Below(a: string, b: string)
  {
    |a| == 0 || (|b| > 0 && (a[0] < b[0] || (a[0] == b[0] && Below(a[1..], b[1..]))))
  }

  lemma {:induction false} BelowTotal(a: string, b: string)
    ensures Below(a, b) || Below(b, a)
  {
    if |a| > 0 && |b| > 0 && a[0] == b[0] {
      BelowTotal(a[1..], b[1..]);
    }
  }

  lemma {:induction false} BelowReflexive(a: string)
    ensures Below(a, a)
  {
    if |a| > 0 {
      BelowReflexive(a[1..]);
    }
  }

  lemma {:induction false} BelowAntisymmetric(a: string, b: string)
    requires Below(a, b) && Below(b, a)
    ensures a == b
  {
    if |a| > 0 {
      BelowAntisymmetric(a[1..], b[1..]);
      assert a == [a[0]] + a[1..] && b == [b[0]] + b[1..];
    }
  }

  lemma {:induction false} BelowTransitive(a: string, b: string, c: string)
    requires Below(a, b) && Below(b, c)
    ensures Below(a, c)
  {
    if |a| > 0 && a[0] == b[0] && b[0] == c[0] {
      BelowTransitive(a[1..], b[1..], c[1..]);
    }
  }

  predicate Sorted(s: seq<string>)
  {
    forall i, j :: 0 <= i < j < |s| ==> Below(s[i], s[j])
  }

  /** `y` is at or below every member of `s`. */
  predicate LowerBound(y: string, s: seq<string>)
  {
    forall k :: 0 <= k < |s| ==> Below(y, s[k])
  }

  /** A bound on every member of `s` and on `x` bounds any rearrangement of `s` with `x` added. */
  lemma LowerBoundRearranged(y: string, x: string, s: seq<string>, r: seq<string>)
    requires LowerBound(y, s) && Below(y, x)
    requires multiset(r) == multiset(s) + multiset{x}
    ensures LowerBound(y, r)
  {
    forall k | 0 <= k < |r| ensures Below(y, r[k]) {
      assert r[k] in multiset(r);
      assert r[k] == x || r[k] in multiset(s);
    }
  }

  /** The head of a sorted sequence bounds it. */
  lemma HeadBounds(s: seq<string>)
    requires Sorted(s) && |s| > 0
    ensures LowerBound(s[0], s)
  {
    BelowReflexive(s[0]);
  }

  function Insert(x: string, s: seq<string>): (r: seq<string>)
    requires Sorted(s)
    ensures Sorted(r)
    ensures multiset(r) == multiset(s) + multiset{x}
  {
    if |s| == 0 then [x]
    else if Below(x, s[0]) then
      assert LowerBound(x, s) by {
        forall k | 0 <= k < |s| ensures Below(x, s[k]) {
          if k > 0 { BelowTransitive(x, s[0], s[k]); }
        }
      }
      [x] + s
    else
      BelowTotal(x, s[0]);
      var rest := Insert(x, s[1..]);
      assert s == [s[0]] + s[1..];
      LowerBoundRearranged(s[0], x, s[1..], rest);
      [s[0]] + rest
  }

  /** Python's `sorted` on strings: an ordered rearrangement of its input. */
  function Sort(s: seq<string>): (r: seq<string>)
    ensures Sorted(r)
    ensures multiset(r) == multiset(s)
  {
    if |s| == 0 then []
    else
      assert s == s[..|s| - 1] + [s[|s| - 1]];
      Insert(s[|s| - 1], Sort(s[..|s| - 1]))
  }

  /** Removing the head removes one occurrence of it. */
  lemma DropHead(s: seq<string>)
    requires |s| > 0
    ensures multiset(s[1..]) == multiset(s) - multiset{s[0]}
  {
    assert s == [s[0]] + s[1..];
  }

  /** Two sorted rearrangements of the same non-empty strings start alike. */
  lemma SortedHeads(a: seq<string>, b: seq<string>)
    requires Sorted(a) && Sorted(b) && |a| > 0
    requires multiset(a) == multiset(b)
    ensures |b| > 0 && a[0] == b[0]
  {
    assert a[0] in multiset(b) && b[0] in multiset(a);
    var i :| 0 <= i < |b| && b[i] == a[0];
    var j :| 0 <= j < |a| && a[j] == b[0];
    HeadBounds(a);
    HeadBounds(b);
    assert Below(b[0], b[i]) && Below(a[0], a[j]);
    BelowAntisymmetric(a[0], b[0]);
  }

  /** Two sorted rearrangements of the same strings are the same sequence. */
  lemma {:induction false} SortedUnique(a: seq<string>, b: seq<string>)
    requires Sorted(a) && Sorted(b)
    requires multiset(a) == multiset(b)
    ensures a == b
  {
    if |a| == 0 {
      assert |b| == |multiset(b)| == 0;
    } else {
      SortedHeads(a, b);
      DropHead(a);
      DropHead(b);
      SortedUnique(a[1..], b[1..]);
      assert a == [a[0]] + a[1..] && b == [b[0]] + b[1..];
    }
  }

  predicate Distinct(s: seq<string>)
  {
    forall i, j :: 0 <= i < j < |s| ==> s[i] != s[j]
  }

  /** In a sequence without repeats every member occurs exactly once. */
  lemma {:induction false} DistinctMultiplicity(s: seq<string>, x: string)
    requires Distinct(s)
    ensures multiset(s)[x] == if x in s then 1 else 0
  {
    if |s| > 0 {
      var t := s[..|s| - 1];
      assert s == t + [s[|s| - 1]];
      DistinctMultiplicity(t, x);
      if x == s[|s| - 1] {
        assert x !in t;
      }
    }
  }

  /** The strings a sequence holds, forgetting order and repeats. */
  function Elements(s: seq<string>): set<string>
  {
    set x | x in s
  }

  /** Sequences without repeats that hold the same strings hold them with the same multiplicities. */
  lemma SameSetSameMultiset(a: seq<string>, b: seq<string>)
    requires Distinct(a) && Distinct(b)
    requires Elements(a) == Elements(b)
    ensures multiset(a) == multiset(b)
  {
    forall x
      ensures multiset(a)[x] == multiset(b)[x]
    {
      DistinctMultiplicity(a, x);
      DistinctMultiplicity(b, x);
      assert x in a <==> x in Elements(a);
      assert x in b <==> x in Elements(b);
    }
  }
}

=== FILE: paths.dfy ===
/**
 * POSIX path helpers on `/`-separated names: `os.path.basename`,
 * `os.path.splitext` and `str.lower`.
 */
module Paths {
  import opened Text

  /** The last component of a path: everything after its last `/`. */
  function Basename(p: string): (r: string)
    ensures '/' !in r
    ensures EndsWith(p, r)
    ensures |r| < |p| ==> p[|p| - |r| - 1] == '/'
    ensures !EndsWith(r, "/")
  {
    p[LastIndexOf(p, '/') + 1..]
  }

  /** In `c`, the `.` at `i` follows the non-`.` at `j`. */
  predicate DotAfterNonDot(c: string, i: int, j: int)
  {
    0 <= j < i < |c| && c[i] == '.' && c[j] != '.'
  }

  /** A path component has an extension when some `.` in it follows a character that is not a `.`. */
  predicate HasExtension(c: string)
  {
    exists i, j | 0 <= j < i < |c| :: DotAfterNonDot(c, i, j)
  }

  /** Position `j` of `p` lies in `[lo, hi)` and is not a `.`. */
  predicate NonDotAt(p: string, lo: int, hi: int, j: int)
  {
    lo <= j < hi && 0 <= j < |p| && p[j] != '.'
  }

  /** Some character of `p[lo..hi]` is not a `.`. */
  predicate NonDotBetween(p: string, lo: int, hi: int)
  {
    exists j | lo <= j < hi :: NonDotAt(p, lo, hi, j)
  }

  /** Whether `os.path.splitext` finds an extension: the last `.` lies in the last component and is not preceded there only by dots. */
  predicate Splits(p: string)
  {
    var sep := LastIndexOf(p, '/');
    var dot := LastIndexOf(p, '.');
    dot > sep && NonDotBetween(p, sep + 1, dot)
  }

  /**
   * `os.path.splitext`: the extension runs from the last `.` of the last
   * component, unless every character before that `.` in the component is a
   * `.` too (so `.bashrc` and `..py` have none).
   */
  function SplitExt(p: string): (r: (string, string))
    ensures r.0 + r.1 == p
    ensures r.1 != "" <==> Splits(p)
    ensures r.1 != "" ==> r.1[0] == '.' && '.' !in r.1[1..] && '/' !in r.1
  {
    var dot := LastIndexOf(p, '.');
    if Splits(p) then
      var e := p[dot..];
      assert forall k :: 0 <= k < |e| ==> e[k] == p[dot + k];
      (p[..dot], e)
    else
      (p, "")
  }

  /** The extension is non-empty exactly when the last component has one in the sense of `HasExtension`. */
  lemma ExtensionIffDotted(p: string)
    ensures SplitExt(p).1 != "" <==> HasExtension(Basename(p))
  {
    var c := p[LastIndexOf(p, '/') + 1..];
    if HasExtension(c) {
      DottedSplits(p, c);
    }
    if Splits(p) {
      SplitsDotted(p, c);
    }
  }

  lemma DottedSplits(p: string, c: string)
    requires c == p[LastIndexOf(p, '/') + 1..]
    requires HasExtension(c)
    ensures Splits(p)
  {
    var sep := LastIndexOf(p, '/');
    var dot := LastIndexOf(p, '.');
    var i, j :| 0 <= j < i < |c| && DotAfterNonDot(c, i, j);
    assert p[sep + 1 + i] == '.' && p[sep + 1 + j] != '.' by {
      assert c[i] == p[sep + 1 + i] && c[j] == p[sep + 1 + j];
    }
    assert sep + 1 + i <= dot;
    assert NonDotAt(p, sep + 1, dot, sep + 1 + j);
  }

  lemma SplitsDotted(p: string, c: string)
    requires c == p[LastIndexOf(p, '/') + 1..]
    requires Splits(p)
    ensures HasExtension(c)
  {
    var sep := LastIndexOf(p, '/');
    var dot := LastIndexOf(p, '.');
    var j :| sep + 1 <= j < dot && NonDotAt(p, sep + 1, dot, j);
    assert DotAfterNonDot(c, dot - sep - 1, j - sep - 1) by {
      assert c[dot - sep - 1] == p[dot] && c[j - sep - 1] == p[j];
    }
  }

  /** The extension part of `os.path.splitext(p)`. */
  function Ext(p: string): string
  {
    SplitExt(p).1
  }

  /** ASCII-only `str.lower` on one character. */
  function LowerChar(c: char): (r: char)
    ensures 'A' <= c <= 'Z' ==> 'a' <= r <= 'z' && r as int == c as int + 32
    ensures !('A' <= c <= 'Z') ==> r == c
  {
    if 'A' <= c <= 'Z' then (c as int + 32) as char else c
  }

  /** ASCII-only `str.lower`. */
  function Lower(s: string): (r: string)
    ensures |r| == |s|
  {
    if |s| == 0 then "" else [LowerChar(s[0])] + Lower(s[1..])
  }

  /** Lowering works character by character. */
  lemma {:induction false} LowerChars(s: string)
    ensures forall k | 0 <= k < |s| :: Lower(s)[k] == LowerChar(s[k])
  {
    if |s| > 0 {
      LowerChars(s[1..]);
      assert forall k | 1 <= k < |s| :: Lower(s)[k] == Lower(s[1..])[k - 1];
    }
  }
}

=== FILE: respond.dfy ===
/**
 * `send_to_gemini`: the early exits that answer without a session, and
 * otherwise the session lookup, the prompt sent to it, and the fold over the
 * streamed reply that rewrites the transcript's last entry part by part.
 */
module Responder {
  import opened Wrappers
  import opened Text
  import opened Transcript
  import opened Upload
  import opened SessionKey
  import opened Sessions

  // ---------------------------------------------------------------------------
  // The streamed reply

  /**
   * The parts of one streamed chunk's first candidate; empty when it has no
   * candidate or no parts. A first candidate whose content is missing makes
   * the stream loop raise partway through; that chunk shape is not modelled.
   */
  type Chunk = seq<Option<string>>

  type Stream = seq<Chunk>

  /** The text of each part of a chunk that carries text, in order. */
  function ChunkTexts(c: Chunk): (r: seq<string>)
    ensures |r| <= |c|
  {
    if |c| == 0 then []
    else ChunkTexts(c[..|c| - 1]) + (match c[|c| - 1] case Some(x) => [x] case None => [])
  }

  /** The text of every text-carrying part of the stream, in arrival order. */
  function StreamTexts(s: Stream): seq<string>
  {
    if |s| == 0 then [] else StreamTexts(s[..|s| - 1]) + ChunkTexts(s[|s| - 1])
  }

  /** The strings of `xs` run together. */
  function Concat(xs: seq<string>): string
  {
    if |xs| == 0 then "" else Concat(xs[..|xs| - 1]) + xs[|xs| - 1]
  }

  /** The transcript without its last entry. */
  function Front(t: Transcript): Transcript
    requires |t| > 0
  {
    t[..|t| - 1]
  }

  /** The transcript with its last entry replaced by an assistant entry holding `text`. */
  function Rewrite(t: Transcript, text: string): (r: Transcript)
    requires |t| > 0
    ensures |r| == |t| && r[..|t| - 1] == t[..|t| - 1] && r[|t| - 1] == Entry(Assistant, text)
  {
    Front(t) + [Entry(Assistant, text)]
  }

  /** The transcript after the whole stream: the last entry holds every text part run together. */
  function StreamedFinal(t: Transcript, s: Stream): Transcript
    requires |t| > 0
  {
    Rewrite(t, Concat(StreamTexts(s)))
  }

  /**
   * The transcripts yielded along the way, stated without a loop: after the
   * k-th text part the last entry holds the first k+1 texts run together.
   */
  function StreamedSnapshots(t: Transcript, s: Stream): (r: seq<Transcript>)
    requires |t| > 0
    ensures |r| == |StreamTexts(s)|
    ensures forall k :: 0 <= k < |r| ==> r[k] == Rewrite(t, Concat(StreamTexts(s)[..k + 1]))
  {
    var texts := StreamTexts(s);
    seq(|texts|, k requires 0 <= k < |texts| => Rewrite(t, Concat(texts[..k + 1])))
  }

  /** A placeholder the fold starts from: an empty assistant entry at the end. */
  predicate EndsWithPlaceholder(t: Transcript)
  {
    |t| > 0 && t[|t| - 1] == Entry(Assistant, "")
  }

  /** `snaps` holds one transcript per text of `seen`: the k-th with the first k+1 texts in its last entry. */
  predicate SnapshotsOf(t: Transcript, seen: seq<string>, snaps: seq<Transcript>)
    requires |t| > 0
  {
    |snaps| == |seen| && forall k :: 0 <= k < |snaps| ==> snaps[k] == Rewrite(t, Concat(seen[..k + 1]))
  }

  /** One more text part adds exactly one snapshot, and leaves the earlier ones as they were. */
  lemma SnapshotsExtend(t: Transcript, seen: seq<string>, snaps: seq<Transcript>, x: string)
    requires |t| > 0 && SnapshotsOf(t, seen, snaps)
    ensures SnapshotsOf(t, seen + [x], snaps + [Rewrite(t, Concat(seen + [x]))])
  {
    var seen', snaps' := seen + [x], snaps + [Rewrite(t, Concat(seen + [x]))];
    forall k | 0 <= k < |snaps'|
      ensures snaps'[k] == Rewrite(t, Concat(seen'[..k + 1]))
    {
      if k < |snaps| {
        assert seen'[..k + 1] == seen[..k + 1];
      } else {
        assert seen'[..k + 1] == seen';
      }
    }
  }

  /** The inner loop: the parts of one chunk, each text part appended, written back and yielded. */
  method FoldChunk(t: Transcript, seen: seq<string>, output: string, snaps: seq<Transcript>, chunk: Chunk)
    returns (output': string, final: Transcript, snaps': seq<Transcript>)
    requires |t| > 0
    requires output == Concat(seen) && SnapshotsOf(t, seen, snaps)
    ensures output' == Concat(seen + ChunkTexts(chunk))
    ensures final == Rewrite(t, output')
    ensures SnapshotsOf(t, seen + ChunkTexts(chunk), snaps')
  {
    output' := output;
    final := Rewrite(t, output);
    snaps' := snaps;
    var j := 0;
    assert seen + ChunkTexts(chunk[..0]) == seen;
    while j < |chunk|
      invariant 0 <= j <= |chunk|
      invariant output' == Concat(seen + ChunkTexts(chunk[..j]))
      invariant final == Rewrite(t, output')
      invariant SnapshotsOf(t, seen + ChunkTexts(chunk[..j]), snaps')
    {
      var now := seen + ChunkTexts(chunk[..j]);
      assert chunk[..j + 1][..j] == chunk[..j];
      match chunk[j] {
        case Some(text) =>
          assert seen + ChunkTexts(chunk[..j + 1]) == now + [text];
          assert (now + [text])[..|now|] == now;
          SnapshotsExtend(t, now, snaps', text);
          output' := output' + text;
          final := Rewrite(t, output');
          snaps' := snaps' + [final];
        case None =>
          assert seen + ChunkTexts(chunk[..j + 1]) == now;
      }
      j := j + 1;
    }
    assert chunk[..j] == chunk;
  }

  /**
   * The loop over the response stream: every part whose text is not None is
   * appended to the running output, the last entry is rewritten with it, and
   * the transcript is yielded; the final transcript is what remains.
   */
  method StreamFold(t: Transcript, s: Stream) returns (final: Transcript, snaps: seq<Transcript>)
    requires EndsWithPlaceholder(t)
    ensures final == StreamedFinal(t, s)
    ensures snaps == StreamedSnapshots(t, s)
  {
    var output := "";
    final := t;
    assert final == Rewrite(t, output);
    snaps := [];
    var i := 0;
    while i < |s|
      invariant 0 <= i <= |s|
      invariant output == Concat(StreamTexts(s[..i]))
      invariant final == Rewrite(t, output)
      invariant SnapshotsOf(t, StreamTexts(s[..i]), snaps)
    {
      assert s[..i + 1][..i] == s[..i];
      output, final, snaps := FoldChunk(t, StreamTexts(s[..i]), output, snaps, s[i]);
      i := i + 1;
    }
    assert s[..i] == s;
    var spec := StreamedSnapshots(t, s);
    assert SnapshotsOf(t, StreamTexts(s), snaps);
    assert forall k | 0 <= k < |snaps| :: snaps[k] == spec[k];
  }

  /** The text so far is a prefix of the text after more parts: running together only ever grows. */
  lemma {:induction false} ConcatPrefix(xs: seq<string>, m: nat, n: nat)
    requires m <= n <= |xs|
    ensures StartsWith(Concat(xs[..n]), Concat(xs[..m]))
    decreases n
  {
    if m < n {
      ConcatPrefix(xs, m, n - 1);
      assert xs[..n][..n - 1] == xs[..n - 1];
      var a, b := Concat(xs[..m]), Concat(xs[..n - 1]);
      assert Concat(xs[..n]) == b + xs[n - 1];
      assert (b + xs[n - 1])[..|a|] == b[..|a|];
    } else {
      assert Concat(xs[..n])[..|Concat(xs[..m])|] == Concat(xs[..n]);
    }
  }

  /**
   * The streamed transcripts: one snapshot per text part; every snapshot keeps
   * all entries but the last and puts an assistant entry last; each
   * snapshot's text is a prefix of every later one's; and the final
   * transcript is the last snapshot when there is one.
   */
  lemma StreamedGrowing(t: Transcript, s: Stream, k: int, l: int)
    requires |t| > 0
    requires 0 <= k <= l < |StreamedSnapshots(t, s)|
    ensures var snaps := StreamedSnapshots(t, s);
      && |snaps[k]| == |t| && snaps[k][..|t| - 1] == t[..|t| - 1]
      && snaps[k][|t| - 1].role == Assistant
      && StartsWith(snaps[l][|t| - 1].content, snaps[k][|t| - 1].content)
      && StreamedFinal(t, s) == snaps[|snaps| - 1]
  {
    var texts := StreamTexts(s);
    ConcatPrefix(texts, k + 1, l + 1);
    assert texts[..|texts|] == texts;
  }

  /** The final transcript: all entries but the last kept, and the last holding every text part run together; the placeholder stays when no text arrives. */
  lemma StreamedEnd(t: Transcript, s: Stream)
    requires EndsWithPlaceholder(t)
    ensures var final := StreamedFinal(t, s);
      && |final| == |t| && final[..|t| - 1] == t[..|t| - 1]
      && final[|t| - 1] == Entry(Assistant, Concat(StreamTexts(s)))
      && (StreamTexts(s) == [] ==> final == t)
  {
    assert t == Front(t) + [t[|t| - 1]];
  }

  /** A stream whose first chunk has a text part and a part without text, then an empty chunk, then a second text part. */
  const ExampleStream: Stream := [[Some("Hel"), None], [], [Some("lo")]]

  /** The example's text parts: the part without text and the empty chunk contribute nothing. */
  lemma ExampleTexts()
    ensures StreamTexts(ExampleStream) == ["Hel", "lo"]
  {
    var s := ExampleStream;
    var c0, c2 := s[0], s[2];
    assert ChunkTexts(c0[..1]) == ["Hel"] by {
      assert c0[..1][..0] == [];
    }
    assert ChunkTexts(c0) == ["Hel"] by {
      assert c0[..1] == c0[..|c0| - 1];
    }
    assert ChunkTexts(c2) == ["lo"] by {
      assert c2[..0] == [];
    }
    assert StreamTexts(s[..1]) == ["Hel"] by {
      assert s[..1][..0] == [] && s[..1][0] == c0;
    }
    assert StreamTexts(s[..2]) == ["Hel"] by {
      assert s[..2][..1] == s[..1] && s[..2][1] == [];
    }
    assert s[..2] == s[..|s| - 1];
  }

  /** The example yields two snapshots, "Hel" then "Hello", and ends with "Hello". */
  lemma StreamedExample(t: Transcript)
    requires EndsWithPlaceholder(t)
    ensures StreamedSnapshots(t, ExampleStream) == [Rewrite(t, "Hel"), Rewrite(t, "Hello")]
    ensures StreamedFinal(t, ExampleStream) == Rewrite(t, "Hello")
  {
    ExampleTexts();
    var texts := ["Hel", "lo"];
    assert Concat(texts[..1]) == "Hel" by {
      assert texts[..1][..0] == [];
    }
    assert Concat(texts) == "Hello" by {
      assert texts[..1] == texts[..|texts| - 1];
    }
    assert texts[..2] == texts;
  }

  // ---------------------------------------------------------------------------
  // Upload markers

  const ZipMarker: string := "\U{1F4E6} ZIP file uploaded:"
  const FileMarker: string := "\U{1F4C4} File uploaded:"
  const BatchMarker: string := "\U{1F4DA} Multiple files uploaded"

  /** The prompt is an upload summary, by the markers the responder looks for. */
  predicate IsUploadPrompt(p: string)
  {
    Contains(p, ZipMarker) || Contains(p, FileMarker) || Contains(p, BatchMarker)
  }

  /** The characters each marker starts with. */
  predicate MarkerStart(c: char)
  {
    c == '\U{1F4E6}' || c == '\U{1F4C4}' || c == '\U{1F4DA}'
  }

  /** No character of `s` starts a marker. */
  predicate NoMarkerStart(s: string)
  {
    forall k :: 0 <= k < |s| ==> !MarkerStart(s[k])
  }

  lemma NoMarkerStartConcat(a: string, b: string)
    requires NoMarkerStart(a) && NoMarkerStart(b)
    ensures NoMarkerStart(a + b)
  {
    forall k | 0 <= k < |a + b| ensures !MarkerStart((a + b)[k]) {
      if k >= |a| {
        assert (a + b)[k] == b[k - |a|];
      }
    }
  }

  lemma DigitsHaveNoMarkerStart(s: string)
    requires IsDigits(s)
    ensures NoMarkerStart(s)
  {
  }

  /** The bullet list of names free of marker characters is itself free of them. */
  lemma {:induction false} BulletsNoMarkerStart(xs: seq<string>)
    requires forall i :: 0 <= i < |xs| ==> NoMarkerStart(xs[i])
    ensures NoMarkerStart(Bullets(xs))
  {
    assert NoMarkerStart("- ") && NoMarkerStart("\n");
    if |xs| == 1 {
      NoMarkerStartConcat("- ", xs[0]);
    } else if |xs| > 1 {
      BulletsNoMarkerStart(xs[1..]);
      NoMarkerStartConcat("- ", xs[0]);
      NoMarkerStartConcat("- " + xs[0], "\n");
      NoMarkerStartConcat("- " + xs[0] + "\n", Bullets(xs[1..]));
    }
  }

  /** The fixed text around the two counts of a batch summary has no marker character. */
  lemma CountTextNoMarkerStart()
    ensures NoMarkerStart(" (") && NoMarkerStart(" files)</p><p>Extracted ") && NoMarkerStart("</pre>")
  {
  }

  /** The fixed text after the extracted count has no marker character. */
  lemma TotalTextNoMarkerStart()
    ensures NoMarkerStart(" text file(s) in total</p>")
  {
  }

  /** The fixed heading of the uploaded-file list has no marker character. */
  lemma ListHeadingNoMarkerStart()
    ensures NoMarkerStart("<p>Uploaded files:</p><pre>")
  {
  }

  /** The tail of a batch summary over marker-free names has no marker character. */
  lemma BatchTailNoMarkerStart(processed: nat, extracted: nat, uploaded: seq<string>)
    requires forall i :: 0 <= i < |uploaded| ==> NoMarkerStart(uploaded[i])
    ensures NoMarkerStart(BatchTail(processed, extracted, uploaded))
  {
    var n1, n2, b := NatToString(processed), NatToString(extracted), Bullets(uploaded);
    DigitsHaveNoMarkerStart(n1);
    DigitsHaveNoMarkerStart(n2);
    BulletsNoMarkerStart(uploaded);
    CountTextNoMarkerStart();
    TotalTextNoMarkerStart();
    ListHeadingNoMarkerStart();
    var p1, p2, p3, p4, p5 := " (", " files)</p><p>Extracted ", " text file(s) in total</p>", "<p>Uploaded files:</p><pre>", "</pre>";
    NoMarkerStartConcat(p1, n1);
    NoMarkerStartConcat(p1 + n1, p2);
    NoMarkerStartConcat(p1 + n1 + p2, n2);
    NoMarkerStartConcat(p1 + n1 + p2 + n2, p3);
    NoMarkerStartConcat(p1 + n1 + p2 + n2 + p3, p4);
    NoMarkerStartConcat(p1 + n1 + p2 + n2 + p3 + p4, b);
    NoMarkerStartConcat(p1 + n1 + p2 + n2 + p3 + p4 + b, p5);
  }

  /** The fixed opening of every batch summary, before its label. */
  const BatchOpening: string := "<p>\U{1F4DA} Multiple "

  lemma BatchOpeningShape()
    ensures |BatchOpening| == 14 && BatchOpening[3] == '\U{1F4DA}'
    ensures forall k :: 0 <= k < 14 && MarkerStart(BatchOpening[k]) ==> k == 3
  {
  }

  lemma LabelsNoMarkerStart(l: BatchLabel)
    ensures NoMarkerStart(LabelText(l) + " uploaded") && |LabelText(l)| > 0
  {
  }

  /** Gluing marker-free text after a 14-character opening whose only marker character is at index 3. */
  lemma MarkerOnlyInOpening(a: string, rest: string)
    requires |a| == 14 && forall k :: 0 <= k < 14 && MarkerStart(a[k]) ==> k == 3
    requires NoMarkerStart(rest) && |rest| > 0
    ensures |a + rest| > 14 && (a + rest)[3] == a[3] && (a + rest)[14] == rest[0]
    ensures forall k :: 0 <= k < |a + rest| && MarkerStart((a + rest)[k]) ==> k == 3
  {
    var r := a + rest;
    forall k | 14 <= k < |r| ensures !MarkerStart(r[k]) {
      assert r[k] == rest[k - 14];
    }
  }

  /** A batch summary is the fixed opening, then its label, "uploaded" and the tail. */
  lemma BatchRenderSplit(l: BatchLabel, processed: nat, extracted: nat, uploaded: seq<string>)
    ensures Render(Batch(l, processed, extracted, uploaded))
      == BatchOpening + ((LabelText(l) + " uploaded") + BatchTail(processed, extracted, uploaded))
  {
    var mid, tail := LabelText(l) + " uploaded", BatchTail(processed, extracted, uploaded);
    ConcatAssoc(BatchOpening, LabelText(l), " uploaded");
    ConcatAssoc(BatchOpening, mid, tail);
  }

  /**
   * Regrouping a concatenation, stated over plain variables: applied to a
   * summary's pieces, it regroups them without the solver unfolding the
   * literals they are made of, which the same step written inline does.
   */
  lemma ConcatAssoc(a: string, b: string, c: string)
    ensures (a + b) + c == a + (b + c)
  {
  }

  /** A two-file summary over marker-free names holds a marker character only where its own emoji stands. */
  lemma BatchMarkerStarts(l: BatchLabel, processed: nat, extracted: nat, uploaded: seq<string>)
    requires forall i :: 0 <= i < |uploaded| ==> NoMarkerStart(uploaded[i])
    ensures var r := Render(Batch(l, processed, extracted, uploaded));
      && |r| > 14 && r[3] == '\U{1F4DA}' && r[14] == LabelText(l)[0]
      && forall k :: 0 <= k < |r| && MarkerStart(r[k]) ==> k == 3
  {
    var mid, tail := LabelText(l) + " uploaded", BatchTail(processed, extracted, uploaded);
    BatchTailNoMarkerStart(processed, extracted, uploaded);
    LabelsNoMarkerStart(l);
    BatchOpeningShape();
    NoMarkerStartConcat(mid, tail);
    BatchRenderSplit(l, processed, extracted, uploaded);
    MarkerOnlyInOpening(BatchOpening, mid + tail);
  }

  /**
   * A marker of at least twelve characters is absent from a text whose only
   * marker character stands at index 3, when the text differs from the marker
   * at its first or its twelfth character from there.
   */
  lemma MarkerNotAt(r: string, m: string)
    requires |m| > 11 && MarkerStart(m[0])
    requires forall k :: 0 <= k < |r| && MarkerStart(r[k]) ==> k == 3
    requires |r| > 14 && (r[3] != m[0] || r[14] != m[11])
    ensures !Contains(r, m)
  {
    forall i | 0 <= i <= |r| - |m|
      ensures !OccursAt(r, m, i)
    {
      if i != 3 {
        assert r[i..i + |m|][0] != m[0];
      } else {
        assert r[i..i + |m|][0] != m[0] || r[i..i + |m|][11] != m[11];
      }
    }
  }

  /** The marker a one-file summary of each kind starts with. */
  function MarkerOf(k: Kind): string
  {
    match k
    case ZipKind => ZipMarker
    case TextKind => FileMarker
  }

  /** Text that contains a marker still contains it with more text after it. */
  lemma ContainsExtend(a: string, b: string, m: string)
    requires Contains(a, m)
    ensures Contains(a + b, m)
  {
    var i :| 0 <= i <= |a| - |m| && OccursAt(a, m, i);
    assert (a + b)[i..i + |m|] == a[i..i + |m|];
    assert OccursAt(a + b, m, i);
  }

  /** The opening of a one-file summary is its kind's marker after the paragraph tag. */
  lemma SingleOpening(k: Kind)
    ensures Contains("<p>" + KindText(k) + " uploaded: ", MarkerOf(k))
  {
    assert "<p>" + KindText(k) + " uploaded: " == "<p>" + MarkerOf(k) + " ";
    ContainsAt("<p>", MarkerOf(k), " ");
  }

  /** Every one-file summary carries its kind's marker, whatever the file is called, so it is never answered as a prompt. */
  lemma SingleRecognized(s: Summary)
    requires !s.Batch?
    ensures Contains(Render(s), MarkerOf(s.kind))
    ensures IsUploadPrompt(Render(s))
  {
    var open := "<p>" + KindText(s.kind) + " uploaded: ";
    var m := MarkerOf(s.kind);
    SingleOpening(s.kind);
    ContainsExtend(open, s.filename, m);
    match s
    case SingleEmpty(_, _) =>
      ContainsExtend(open + s.filename, ", but no text content was found or the file format is not supported.</p>", m);
    case SingleExtracted(_, _, names) =>
      var a := open + s.filename;
      ContainsExtend(a, "</p><p>Extracted ", m);
      ContainsExtend(a + "</p><p>Extracted ", NatToString(|names|), m);
      var b := a + "</p><p>Extracted " + NatToString(|names|);
      ContainsExtend(b, " text file(s):</p><pre>", m);
      ContainsExtend(b + " text file(s):</p><pre>", Bullets(names), m);
      ContainsExtend(b + " text file(s):</p><pre>" + Bullets(names), "</pre>", m);
  }

  /** The mixed-kind batch summary carries the batch marker right after its opening tag. */
  lemma MixedRecognized(processed: nat, extracted: nat, uploaded: seq<string>)
    ensures Contains(Render(Batch(Mixed, processed, extracted, uploaded)), BatchMarker)
  {
    var tail := BatchTail(processed, extracted, uploaded);
    var icon := "\U{1F4DA} Multiple ";
    BatchMarkerPieces();
    assert "<p>" + icon + "files" == "<p>" + (icon + "files");
    assert "<p>" + (icon + "files") + " uploaded" == "<p>" + (icon + "files" + " uploaded");
    assert BatchHead(Mixed) == "<p>" + BatchMarker;
    ContainsAt("<p>", BatchMarker, tail);
  }

  /** The batch marker and the opening of a batch summary, piece by piece. */
  lemma BatchMarkerPieces()
    ensures BatchMarker == "\U{1F4DA} Multiple " + "files" + " uploaded"
    ensures BatchOpening == "<p>" + "\U{1F4DA} Multiple "
  {
  }

  /** A single-kind batch summary over marker-free names carries none of the markers. */
  lemma SingleKindUnrecognized(l: BatchLabel, processed: nat, extracted: nat, uploaded: seq<string>)
    requires l != Mixed
    requires forall i :: 0 <= i < |uploaded| ==> NoMarkerStart(uploaded[i])
    ensures !IsUploadPrompt(Render(Batch(l, processed, extracted, uploaded)))
  {
    var r := Render(Batch(l, processed, extracted, uploaded));
    BatchMarkerStarts(l, processed, extracted, uploaded);
    MarkersShape();
    assert LabelText(l)[0] != 'f';
    MarkerNotAt(r, ZipMarker);
    MarkerNotAt(r, FileMarker);
    MarkerNotAt(r, BatchMarker);
  }

  /** The three markers: each starts with its emoji, and only the batch marker with the batch emoji, followed at offset 11 by "f". */
  lemma MarkersShape()
    ensures |ZipMarker| > 11 && ZipMarker[0] == '\U{1F4E6}'
    ensures |FileMarker| > 11 && FileMarker[0] == '\U{1F4C4}'
    ensures |BatchMarker| > 11 && BatchMarker[0] == '\U{1F4DA}' && BatchMarker[11] == 'f'
  {
  }

  /**
   * A two-file summary is taken for an upload only when it says "files",
   * that is when ZIP and non-ZIP files were mixed; "Multiple ZIP files" and
   * "Multiple text files" do not carry the marker and are answered as prompts.
   */
  lemma BatchRecognizedOnlyMixed(l: BatchLabel, processed: nat, extracted: nat, uploaded: seq<string>)
    requires forall i :: 0 <= i < |uploaded| ==> NoMarkerStart(uploaded[i])
    ensures IsUploadPrompt(Render(Batch(l, processed, extracted, uploaded))) <==> l == Mixed
  {
    if l == Mixed {
      MixedRecognized(processed, extracted, uploaded);
    } else {
      SingleKindUnrecognized(l, processed, extracted, uploaded);
    }
  }

  // ---------------------------------------------------------------------------
  // The responder

  /** The reply when there is nothing to answer. */
  const Guidance: string := "Please enter a message to start the conversation."

  /** The reply when the latest user entry is an upload summary. */
  const CannedReply: string := "What would you like to know about the code in this ZIP file?"

  /** What one call leaves behind: the transcript, the session store, and the transcripts yielded while streaming. */
  datatype Reply = Reply(transcript: Transcript, sessions: SessionMap, yielded: seq<Transcript>)

  /** An answer given without any session: one assistant entry, nothing yielded. */
  function Early(t: Transcript, sessions: SessionMap, text: string): Reply
  {
    Reply(t + [Entry(Assistant, text)], sessions, [])
  }

  /**
   * The path past the early exits: the key's session is fetched or created
   * and seeded, the prompt is sent to it, and its streamed reply fills an
   * assistant placeholder added to the transcript.
   */
  function Answered(t: Transcript, store: Store, sessions: SessionMap, prompt: string, stream: Stream): (r: Reply)
    ensures |r.transcript| == |t| + 1 && r.transcript[..|t|] == t
    ensures r.transcript[|t|] == Entry(Assistant, Concat(StreamTexts(stream)))
    ensures |r.yielded| == |StreamTexts(stream)|
    ensures KeyOf(store) in r.sessions
  {
    var key := KeyOf(store);
    var pending := t + [Entry(Assistant, "")];
    assert pending[..|t|] == t;
    Reply(StreamedFinal(pending, stream), SendPrompt(OpenSession(sessions, key, store), key, prompt),
          StreamedSnapshots(pending, stream))
  }

  /** The prompt is answered: there is a latest user entry and it is not an upload summary. */
  predicate Answers(t: Transcript)
  {
    LastUserPrompt(t).Some? && !IsUploadPrompt(LastUserPrompt(t).value)
  }

  /**
   * `send_to_gemini`: guidance when there is no user entry, the canned reply
   * when the latest user entry reports an upload, and otherwise the streamed
   * answer of the session keyed by the current uploads.
   */
  function Respond(t: Transcript, store: Store, sessions: SessionMap, stream: Stream): (r: Reply)
    ensures |r.transcript| == |t| + 1 && r.transcript[..|t|] == t && r.transcript[|t|].role == Assistant
    ensures LastUserPrompt(t).None? ==> r.transcript[|t|].content == Guidance
    ensures LastUserPrompt(t).Some? && IsUploadPrompt(LastUserPrompt(t).value) ==> r.transcript[|t|].content == CannedReply
    ensures Answers(t) ==> r.transcript[|t|].content == Concat(StreamTexts(stream))
    ensures !Answers(t) ==> r.sessions == sessions && r.yielded == []
  {
    if |t| == 0 then Early(t, sessions, Guidance)
    else
      match LastUserPrompt(t)
      case None => Early(t, sessions, Guidance)
      case Some(prompt) =>
        if IsUploadPrompt(prompt) then Early(t, sessions, CannedReply)
        else Answered(t, store, sessions, prompt, stream)
  }

  /** The loop form of the responder, folding the stream part by part; it computes the same reply. */
  method Answer(t: Transcript, store: Store, sessions: SessionMap, stream: Stream) returns (r: Reply)
    ensures r == Respond(t, store, sessions, stream)
  {
    if |t| == 0 {
      return Early(t, sessions, Guidance);
    }
    var prompt := LastUserPrompt(t);
    if prompt.None? {
      return Early(t, sessions, Guidance);
    }
    if IsUploadPrompt(prompt.value) {
      return Early(t, sessions, CannedReply);
    }
    var key := KeyOf(store);
    var fetched := OpenSession(sessions, key, store);
    var sent := SendPrompt(fetched, key, prompt.value);
    var pending := t + [Entry(Assistant, "")];
    var final, snaps := StreamFold(pending, stream);
    r := Reply(final, sent, snaps);
  }

  /** The session store changes exactly when the latest user entry exists and is not an upload summary. */
  lemma RespondTouchesSessions(t: Transcript, store: Store, sessions: SessionMap, stream: Stream)
    ensures Respond(t, store, sessions, stream).sessions != sessions <==> Answers(t)
  {
    if Answers(t) {
      var key := KeyOf(store);
      var r := Respond(t, store, sessions, stream);
      if key in sessions {
        assert |r.sessions[key].log| == |sessions[key].log| + 1;
      }
    }
  }

  /**
   * An answered prompt reaches the session of the current key, and only that
   * session: an existing one is sent the prompt after all it was sent
   * before, a new one gets its seed (if any file is uploaded) and then the prompt.
   */
  lemma RespondSessions(t: Transcript, store: Store, sessions: SessionMap, stream: Stream, prompt: string)
    requires LastUserPrompt(t) == Some(prompt) && !IsUploadPrompt(prompt)
    ensures var r := Respond(t, store, sessions, stream).sessions;
      var key := KeyOf(store);
      && r.Keys == sessions.Keys + {key}
      && (forall k | k in sessions && k != key :: r[k] == sessions[k])
      && (key in sessions ==> r[key] == Session(sessions[key].model, sessions[key].log + [Prompt(prompt)]))
      && (key !in sessions ==> r[key] == Session(ModelName, NewSession(store).log + [Prompt(prompt)]))
  {
    var key := KeyOf(store);
    var fetched := OpenSession(sessions, key, store);
    var r := SendPrompt(fetched, key, prompt);
    assert r[key].log == fetched[key].log + [Prompt(prompt)];
  }

  /** Responding keeps every session well shaped. */
  lemma RespondKeepsInv(t: Transcript, store: Store, sessions: SessionMap, stream: Stream)
    requires SessionsInv(sessions)
    ensures SessionsInv(Respond(t, store, sessions, stream).sessions)
  {
    if Answers(t) {
      var key := KeyOf(store);
      OpenKeepsInv(sessions, key, store);
      SendKeepsInv(OpenSession(sessions, key, store), key, LastUserPrompt(t).value);
    }
  }

  /**
   * While an answer streams, each yielded transcript keeps the conversation,
   * ends with an assistant entry whose text only grows, and the last one
   * yielded is the transcript left at the end.
   */
  lemma RespondYields(t: Transcript, store: Store, sessions: SessionMap, stream: Stream, k: int, l: int)
    requires 0 <= k <= l < |Respond(t, store, sessions, stream).yielded|
    ensures var r := Respond(t, store, sessions, stream);
      && |r.yielded[k]| == |t| + 1 && r.yielded[k][..|t|] == t
      && r.yielded[k][|t|].role == Assistant
      && StartsWith(r.yielded[l][|t|].content, r.yielded[k][|t|].content)
      && r.yielded[|r.yielded| - 1] == r.transcript
  {
    var pending := t + [Entry(Assistant, "")];
    assert pending[..|t|] == t;
    StreamedGrowing(pending, stream, k, l);
  }

  /** The latest user entry of a transcript ending in a user entry is that entry. */
  lemma LastUserOfAppended(t: Transcript, text: string)
    ensures LastUserPrompt(t + [Entry(User, text)]) == Some(text)
  {
    var u := t + [Entry(User, text)];
    assert u[..|u| - 1] == t;
  }

  /** A one-file summary, or a summary of a mixed batch, is never sent to a session: the canned reply answers it. */
  lemma SummaryNotSent(t: Transcript, store: Store, sessions: SessionMap, stream: Stream, s: Summary)
    requires !s.Batch? || s.kindLabel == Mixed
    ensures var r := Respond(Announce(t, Some(s)), store, sessions, stream);
      r.sessions == sessions && r.transcript == Announce(t, Some(s)) + [Entry(Assistant, CannedReply)]
  {
    LastUserOfAppended(t, Render(s));
    if s.Batch? {
      MixedRecognized(s.processed, s.extracted, s.uploaded);
    } else {
      SingleRecognized(s);
    }
  }

  /**
   * A summary of a batch of ZIP files only, or of text files only, is sent to
   * the session as if it were a question: the summary text becomes the last
   * prompt in the current key's log, and the streamed reply is appended.
   */
  lemma SingleKindBatchSent(t: Transcript, store: Store, sessions: SessionMap, stream: Stream, s: Summary)
    requires s.Batch? && s.kindLabel != Mixed
    requires forall i :: 0 <= i < |s.uploaded| ==> NoMarkerStart(s.uploaded[i])
    ensures var u := Announce(t, Some(s));
      var r := Respond(u, store, sessions, stream);
      var key := KeyOf(store);
      && key in r.sessions && r.sessions != sessions
      && |r.sessions[key].log| > 0 && r.sessions[key].log[|r.sessions[key].log| - 1] == Prompt(Render(s))
      && r.transcript == u + [Entry(Assistant, Concat(StreamTexts(stream)))]
  {
    var u := Announce(t, Some(s));
    LastUserOfAppended(t, Render(s));
    SingleKindUnrecognized(s.kindLabel, s.processed, s.extracted, s.uploaded);
    RespondTouchesSessions(u, store, sessions, stream);
    RespondSessions(u, store, sessions, stream, Render(s));
    var r := Respond(u, store, sessions, stream);
    assert r.transcript == u + [r.transcript[|u|]];
  }
}

=== FILE: sessionkey.dfy ===
/**
 * The identity of the current set of uploaded artifacts: the comma-join of
 * the sorted artifact names, or `no_files` for an empty store.
 */
module SessionKey {
  import opened Text
  import opened Ordering
  import opened Assoc
  import opened Extract
  import opened Upload

  /** The key used while nothing is uploaded. */
  const NoFilesKey: string := "no_files"

  /** The session key of a store. */
  function KeyOf(store: Store): string
  {
    if |store| == 0 then NoFilesKey else Join(Sort(Keys(store)))
  }

  /** The key of a non-empty store joins its sorted names. */
  lemma KeyOfStored(store: Store)
    requires |store| > 0
    ensures KeyOf(store) == Join(Sort(Keys(store)))
  {
  }

  /** The artifact names held by a store, forgetting their order. */
  function NameSet(store: Store): set<string>
  {
    Elements(Keys(store))
  }

  /**
   * The key depends only on the set of artifact names: not on upload order,
   * and not on what the artifacts hold.
   */
  lemma KeyDependsOnlyOnNames(s1: Store, s2: Store)
    requires UniqueKeys(s1) && UniqueKeys(s2)
    requires NameSet(s1) == NameSet(s2)
    ensures KeyOf(s1) == KeyOf(s2)
  {
    var k1, k2 := Keys(s1), Keys(s2);
    UniqueKeysDistinct(s1);
    UniqueKeysDistinct(s2);
    SameSetSameMultiset(k1, k2);
    assert |s1| == |multiset(k1)| == |multiset(k2)| == |s2|;
    SortedUnique(Sort(k1), Sort(k2));
  }

  /** Every name in a sorted list of names is one of the names. */
  lemma SortKeepsCommaFree(xs: seq<string>)
    requires CommaFree(xs)
    ensures CommaFree(Sort(xs))
  {
    var r := Sort(xs);
    forall k | 0 <= k < |r|
      ensures ',' !in r[k]
    {
      assert r[k] in multiset(r);
      assert r[k] in multiset(xs);
      var i :| 0 <= i < |xs| && xs[i] == r[k];
    }
  }

  /** The only comma-free list of names that joins to a comma-free name is that name alone. */
  lemma JoinedSingle(xs: seq<string>, t: string)
    requires |xs| > 0 && CommaFree(xs) && ',' !in t && Join(xs) == t
    ensures xs == [t]
  {
    SplitJoin(xs);
    SplitCommaFree(t);
  }

  /** The sentinel key is itself comma-free. */
  lemma NoFilesCommaFree()
    ensures ',' !in NoFilesKey
  {
    assert forall k | 0 <= k < |NoFilesKey| :: NoFilesKey[k] != ',';
  }

  /** Comma-free names whose sorted join is a comma-free `t` include `t`. */
  lemma SortedJoinedName(names: seq<string>, t: string)
    requires |names| > 0 && CommaFree(names) && ',' !in t
    requires Join(Sort(names)) == t
    ensures t in names
  {
    var sorted := Sort(names);
    SortKeepsCommaFree(names);
    JoinedSingle(sorted, t);
    assert t in multiset(sorted);
  }

  /** A store of comma-free names has a comma-free name `t` as its key only when it holds an artifact named `t`. */
  lemma SingleNameKey(store: Store, t: string)
    requires |store| > 0 && CommaFree(Keys(store)) && ',' !in t
    requires KeyOf(store) == t
    ensures t in Keys(store)
  {
    KeyOfStored(store);
    SortedJoinedName(Keys(store), t);
  }

  /** A store of comma-free names has `no_files` as its key only when it holds an artifact of that name. */
  lemma NoFilesKeyNamesIt(store: Store)
    requires |store| > 0 && CommaFree(Keys(store)) && KeyOf(store) == NoFilesKey
    ensures NoFilesKey in Keys(store)
  {
    NoFilesCommaFree();
    SingleNameKey(store, NoFilesKey);
  }

  /**
   * For comma-free names none of which is `no_files`, the key identifies the
   * set of names: two stores share a key exactly when they hold the same names.
   */
  lemma KeyIdentifiesNames(s1: Store, s2: Store)
    requires UniqueKeys(s1) && UniqueKeys(s2)
    requires CommaFree(Keys(s1)) && CommaFree(Keys(s2))
    requires NoFilesKey !in Keys(s1) && NoFilesKey !in Keys(s2)
    ensures KeyOf(s1) == KeyOf(s2) <==> NameSet(s1) == NameSet(s2)
  {
    if NameSet(s1) == NameSet(s2) {
      KeyDependsOnlyOnNames(s1, s2);
    }
    if |s1| > 0 && KeyOf(s1) == NoFilesKey {
      NoFilesKeyNamesIt(s1);
    }
    if |s2| > 0 && KeyOf(s2) == NoFilesKey {
      NoFilesKeyNamesIt(s2);
    }
    if |s1| > 0 && |s2| > 0 && KeyOf(s1) == KeyOf(s2) {
      var k1, k2 := Keys(s1), Keys(s2);
      SortKeepsCommaFree(k1);
      SortKeepsCommaFree(k2);
      SplitJoin(Sort(k1));
      SplitJoin(Sort(k2));
      assert multiset(k1) == multiset(k2);
      assert NameSet(s1) == NameSet(s2) by {
        forall x ensures x in k1 <==> x in k2 {
          assert x in k1 <==> x in multiset(k1);
          assert x in k2 <==> x in multiset(k2);
        }
      }
    }
    if |s1| == 0 && |s2| == 0 {
      assert Keys(s1) == [] && Keys(s2) == [];
    }
  }

  /** The key of a store holding only the artifact `a,b`. */
  lemma KeyOfCommaName(fs: FileSet)
    ensures KeyOf([("a,b", fs)]) == "a,b"
  {
    assert Keys([("a,b", fs)]) == ["a,b"];
  }

  /** The key of a store holding the artifacts `a` and `b`. */
  lemma KeyOfTwoNames(fs2: FileSet, fs3: FileSet)
    ensures KeyOf([("a", fs2), ("b", fs3)]) == "a,b"
  {
    var names := Keys([("a", fs2), ("b", fs3)]);
    assert names == ["a", "b"];
    assert !Below("b", "a");
    assert Sort(names) == Insert("b", Sort(["a"]));
    assert Sort(["a"]) == ["a"];
    assert Insert("b", ["a"]) == ["a", "b"];
    assert Join(["a", "b"]) == "a" + "," + Join(["b"]);
  }

  /** A name containing a comma collides with the names on either side of it. */
  lemma CommaCollision(fs1: FileSet, fs2: FileSet, fs3: FileSet)
    ensures KeyOf([("a,b", fs1)]) == KeyOf([("a", fs2), ("b", fs3)])
    ensures NameSet([("a,b", fs1)]) != NameSet([("a", fs2), ("b", fs3)])
  {
    KeyOfCommaName(fs1);
    KeyOfTwoNames(fs2, fs3);
    assert Keys([("a,b", fs1)]) == ["a,b"];
    assert "a,b" in NameSet([("a,b", fs1)]);
    assert Keys([("a", fs2), ("b", fs3)]) == ["a", "b"];
  }

  /** An artifact named `no_files` gets the key of the empty store. */
  lemma NoFilesCollision(fs: FileSet)
    ensures KeyOf([(NoFilesKey, fs)]) == KeyOf([])
  {
    assert Keys([(NoFilesKey, fs)]) == [NoFilesKey];
  }
}

=== FILE: sessions.dfy ===
/**
 * The chat-session store: one chat per session key, created on first use and
 * seeded at most once with the uploaded files. The chat client itself is
 * abstracted to the log of messages sent to each session.
 */
module Sessions {
  import opened Text
  import opened Paths
  import opened Assoc
  import opened Extract
  import opened Upload

  /** The model every session is created with. */
  const ModelName: string := "gemini-2.5-pro-exp-03-25"

  /** The trailing instruction sent after the file parts of a seed. */
  const SeedNote: string :=
    "I've uploaded these code files for you to analyze. I'll ask questions about them next."

  /** The MIME types a part can be tagged with. */
  datatype Mime = XPython | JavaScript | TypeScript | Html | Css | Json | Xml | Plain

  /** A MIME type as sent on the wire. */
  function MimeName(m: Mime): string
  {
    match m
    case XPython => "text/x-python"
    case JavaScript => "text/javascript"
    case TypeScript => "text/typescript"
    case Html => "text/html"
    case Css => "text/css"
    case Json => "application/json"
    case Xml => "application/xml"
    case Plain => "text/plain"
  }

  /** One inline file part of a seed: its text and the MIME type it is tagged with. */
  datatype Part = Part(data: string, mimeType: Mime)

  /** What a session is sent: the seed (file parts and a note), or a user prompt. */
  datatype Message = Seed(parts: seq<Part>, note: string) | Prompt(text: string)

  /** A chat session: the model it talks to and everything sent to it so far. */
  datatype Session = Session(model: string, log: seq<Message>)

  type SessionMap = map<string, Session>

  /** The MIME type a file is tagged with, chosen from its lower-cased extension. */
  function MimeType(ext: string): Mime
  {
    if ext == ".py" then XPython
    else if ext == ".js" || ext == ".jsx" then JavaScript
    else if ext == ".ts" || ext == ".tsx" then TypeScript
    else if ext == ".html" then Html
    else if ext == ".css" then Css
    else if ext == ".json" || ext == ".jsonl" then Json
    else if ext == ".xml" || ext == ".svg" then Xml
    else Plain
  }

  /** The extension table as data: each listed extension with the type it selects. */
  const MimeTable: map<string, Mime> := map[
    ".py" := XPython,
    ".js" := JavaScript, ".jsx" := JavaScript,
    ".ts" := TypeScript, ".tsx" := TypeScript,
    ".html" := Html,
    ".css" := Css,
    ".json" := Json, ".jsonl" := Json,
    ".xml" := Xml, ".svg" := Xml
  ]

  /** The branch chain agrees with the table: a listed extension gets its row's type, any other `text/plain`. */
  lemma MimeTypeMatchesTable(ext: string)
    ensures MimeType(ext) == (if ext in MimeTable then MimeTable[ext] else Plain)
  {
  }

  /** No allow-listed extension is `.jsonl`: none is that long. */
  lemma JsonlNotListed()
    ensures ".jsonl" !in TextExtensions
  {
    assert forall i | 0 <= i < |TextExtensions| :: |TextExtensions[i]| < 6;
  }

  /** No allow-listed extension is `.svg`: the only one starting `.s` is `.sh`. */
  lemma SvgNotListed()
    ensures ".svg" !in TextExtensions
  {
    assert forall i | 0 <= i < |TextExtensions| :: |TextExtensions[i]| != 4 || TextExtensions[i][1] != 's';
  }

  /** The allow-list lets through no `.jsonl` or `.svg` file, so those table rows never fire for an extracted file. */
  lemma AllowListSkipsJsonlSvg(name: string)
    requires IsTextName(name)
    ensures Lower(Ext(name)) != ".jsonl" && Lower(Ext(name)) != ".svg"
  {
    ListedIsMembership(Lower(Ext(name)), TextExtensions);
    JsonlNotListed();
    SvgNotListed();
  }

  /** The part sent for one extracted file: a header naming it, then its text. */
  function FilePart(name: string, content: string): Part
  {
    Part("File: " + name + "\n\n" + content, MimeType(Lower(Ext(name))))
  }

  /** The parts for one artifact's files, in the artifact's order. */
  function FileParts(fs: FileSet): (r: seq<Part>)
    ensures |r| == |fs|
    ensures forall j :: 0 <= j < |fs| ==> r[j] == FilePart(fs[j].0, fs[j].1)
  {
    seq(|fs|, j requires 0 <= j < |fs| => FilePart(fs[j].0, fs[j].1))
  }

  /** All file parts of a store: artifacts in store order, then files in artifact order. */
  function SeedParts(store: Store): seq<Part>
  {
    if |store| == 0 then []
    else SeedParts(store[..|store| - 1]) + FileParts(store[|store| - 1].1)
  }

  /** The number of (artifact, file) pairs a store holds. */
  function FileCount(store: Store): nat
  {
    if |store| == 0 then 0
    else FileCount(store[..|store| - 1]) + |store[|store| - 1].1|
  }

  /** Where the parts of artifact `i` begin in the seed. */
  function Offset(store: Store, i: int): nat
    requires 0 <= i <= |store|
  {
    FileCount(store[..i])
  }

  /** File `j` of artifact `i` is the part `p`. */
  predicate PartOf(store: Store, i: int, j: int, p: Part)
  {
    0 <= i < |store| && 0 <= j < |store[i].1| && p == FilePart(store[i].1[j].0, store[i].1[j].1)
  }

  /** There is one part per (artifact, file) pair. */
  lemma {:induction false} SeedPartsCount(store: Store)
    ensures |SeedParts(store)| == FileCount(store)
  {
    if |store| > 0 {
      SeedPartsCount(store[..|store| - 1]);
    }
  }

  /** Every (artifact, file) pair has its part, at its artifact's offset plus its own position. */
  lemma {:induction false} SeedPartsComplete(store: Store, i: int, j: int)
    requires 0 <= i < |store| && 0 <= j < |store[i].1|
    ensures Offset(store, i) + j < |SeedParts(store)|
    ensures SeedParts(store)[Offset(store, i) + j] == FilePart(store[i].1[j].0, store[i].1[j].1)
  {
    var n := |store|;
    var p := store[..n - 1];
    SeedPartsCount(p);
    if i == n - 1 {
      assert store[..i] == p;
    } else {
      assert p[..i] == store[..i] && p[i] == store[i];
      SeedPartsComplete(p, i, j);
      SeedPartsCount(store[..i]);
    }
  }

  /** Every part of the seed comes from some (artifact, file) pair of the store. */
  lemma {:induction false} SeedPartsSound(store: Store, k: int)
    requires 0 <= k < |SeedParts(store)|
    ensures exists i, j | 0 <= i < |store| && 0 <= j < |store[i].1| :: PartOf(store, i, j, SeedParts(store)[k])
  {
    var n := |store|;
    var p := store[..n - 1];
    var last := FileParts(store[n - 1].1);
    assert SeedParts(store) == SeedParts(p) + last;
    if k < |SeedParts(p)| {
      SeedPartsSound(p, k);
      var i, j :| 0 <= i < |p| && 0 <= j < |p[i].1| && PartOf(p, i, j, SeedParts(p)[k]);
      assert PartOf(store, i, j, SeedParts(store)[k]);
    } else {
      var j := k - |SeedParts(p)|;
      assert PartOf(store, n - 1, j, SeedParts(store)[k]);
    }
  }

  /** A well-formed store (every artifact non-empty) has a file to send exactly when it has an artifact. */
  lemma {:induction false} FileCountPositive(store: Store)
    requires StoreInv(store)
    ensures FileCount(store) > 0 <==> |store| > 0
  {
    if |store| > 0 {
      var p := store[..|store| - 1];
      assert WellFormedFileSet(store[|store| - 1].1);
      assert StoreInv(p) by {
        forall i, j | 0 <= i < j < |p| ensures p[i].0 != p[j].0 {
          assert store[i] == p[i] && store[j] == p[j];
        }
      }
      FileCountPositive(p);
    }
  }

  /** A freshly created session: seeded with the store's files and the note when there is any file, else empty. */
  function NewSession(store: Store): (s: Session)
    ensures s.model == ModelName
  {
    var parts := SeedParts(store);
    Session(ModelName, if |parts| > 0 then [Seed(parts, SeedNote)] else [])
  }

  /** A new session over a well-formed store: unseeded exactly when nothing is uploaded, and otherwise seeded once with every file. */
  lemma NewSessionSeed(store: Store)
    requires StoreInv(store)
    ensures NewSession(store).log == [] <==> |store| == 0
    ensures |store| > 0 ==>
      NewSession(store).log == [Seed(SeedParts(store), SeedNote)] && |SeedParts(store)| == FileCount(store) > 0
  {
    SeedPartsCount(store);
    FileCountPositive(store);
  }

  /**
   * Create-or-fetch: the session under `key` is reused when it exists;
   * otherwise a new one is created and seeded from the current store.
   */
  function OpenSession(sessions: SessionMap, key: string, store: Store): (r: SessionMap)
    ensures key in r
    ensures key in sessions ==> r == sessions
    ensures key !in sessions ==> r[key].model == ModelName && |r[key].log| <= 1
    ensures forall k | k in sessions :: k in r && r[k] == sessions[k]
    ensures r.Keys == sessions.Keys + {key}
  {
    if key in sessions then sessions else sessions[key := NewSession(store)]
  }

  /** The session under `key` is sent the prompt, after whatever it was sent before. */
  function SendPrompt(sessions: SessionMap, key: string, prompt: string): (r: SessionMap)
    requires key in sessions
    ensures r.Keys == sessions.Keys
    ensures r[key].model == sessions[key].model
    ensures |r[key].log| == |sessions[key].log| + 1
    ensures r[key].log[..|sessions[key].log|] == sessions[key].log
    ensures r[key].log[|sessions[key].log|] == Prompt(prompt)
    ensures forall k | k in sessions && k != key :: r[k] == sessions[k]
  {
    var s := sessions[key];
    sessions[key := Session(s.model, s.log + [Prompt(prompt)])]
  }

  /** A seed, if any, is the first thing a session was sent. */
  predicate WellShaped(s: Session)
  {
    s.model == ModelName && forall i | 0 <= i < |s.log| :: s.log[i].Seed? ==> i == 0
  }

  /** Every session in the store is well shaped. */
  predicate SessionsInv(sessions: SessionMap)
  {
    forall k | k in sessions :: WellShaped(sessions[k])
  }

  /** Opening a session keeps every session well shaped. */
  lemma OpenKeepsInv(sessions: SessionMap, key: string, store: Store)
    requires SessionsInv(sessions)
    ensures SessionsInv(OpenSession(sessions, key, store))
  {
    var r := OpenSession(sessions, key, store);
    forall k | k in r ensures WellShaped(r[k]) {
      if k !in sessions {
        assert k == key && r[k] == NewSession(store);
      }
    }
  }

  /** Sending a prompt keeps every session well shaped. */
  lemma SendKeepsInv(sessions: SessionMap, key: string, prompt: string)
    requires key in sessions && SessionsInv(sessions)
    ensures SessionsInv(SendPrompt(sessions, key, prompt))
  {
    var r := SendPrompt(sessions, key, prompt);
    var n := |sessions[key].log|;
    assert WellShaped(r[key]) by {
      forall i | 0 <= i < |r[key].log| && r[key].log[i].Seed? ensures i == 0 {
        if i < n {
          assert r[key].log[i] == sessions[key].log[i];
        }
      }
    }
  }

  /**
   * Seeding happens once per key: opening a key that already has a session
   * changes nothing, whatever the store now holds, so a session keeps the
   * file contents it was seeded with even after those files are re-uploaded.
   */
  lemma SeedOnce(sessions: SessionMap, key: string, store1: Store, store2: Store)
    ensures OpenSession(OpenSession(sessions, key, store1), key, store2) == OpenSession(sessions, key, store1)
  {
  }
}

=== FILE: text.dfy ===
/** String helpers: prefixes, substring search, decimal rendering, comma join/split. */
module Text {

  predicate StartsWith(s: string, prefix: string)
  {
    |prefix| <= |s| && s[..|prefix|] == prefix
  }

  predicate EndsWith(s: string, suffix: string)
  {
    |suffix| <= |s| && s[|s| - |suffix|..] == suffix
  }

  /** Python's `t in s` for strings: `t` occurs as a contiguous block of `s`. */
  predicate Contains(s: string, t: string)
  {
    exists i | 0 <= i <= |s| - |t| :: OccursAt(s, t, i)
  }

  /** `t` occurs in `s` starting at index `i`. */
  predicate OccursAt(s: string, t: string, i: int)
  {
    0 <= i <= |s| - |t| && s[i..i + |t|] == t
  }

  lemma ContainsAt(a: string, t: string, b: string)
    ensures Contains(a + t + b, t)
  {
    var s := a + t + b;
    assert s[|a|..|a| + |t|] == t;
    assert OccursAt(s, t, |a|);
  }

  /** Index of the last occurrence of `c` in `s`, or -1 (Python's `str.rfind`). */
  function LastIndexOf(s: string, c: char): (r: int)
    ensures -1 <= r < |s|
    ensures 0 <= r ==> s[r] == c
    ensures forall k | r < k < |s| :: s[k] != c
  {
    LastIndexBelow(s, c, |s|)
  }

  /** Index of the last occurrence of `c` in `s[..n]`, or -1. */
  function LastIndexBelow(s: string, c: char, n: nat): (r: int)
    requires n <= |s|
    ensures -1 <= r < n
    ensures 0 <= r ==> s[r] == c
    ensures forall k | r < k < n :: s[k] != c
  {
    if n == 0 then -1
    else if s[n - 1] == c then n - 1
    else LastIndexBelow(s, c, n - 1)
  }

  /** Index of the first occurrence of `c` in `s`, or -1 (Python's `str.find`). */
  function IndexOf(s: string, c: char): (r: int)
    ensures -1 <= r < |s|
    ensures 0 <= r ==> s[r] == c
    ensures forall k | 0 <= k < |s| && (r == -1 || k < r) :: s[k] != c
  {
    IndexFrom(s, c, 0)
  }

  /** Index of the first occurrence of `c` in `s` at or after `n`, or -1. */
  function IndexFrom(s: string, c: char, n: nat): (r: int)
    requires n <= |s|
    ensures r == -1 || n <= r < |s|
    ensures 0 <= r ==> s[r] == c
    ensures forall k | n <= k < |s| && (r == -1 || k < r) :: s[k] != c
    decreases |s| - n
  {
    if n == |s| then -1
    else if s[n] == c then n
    else IndexFrom(s, c, n + 1)
  }

  // ---------------------------------------------------------------------------
  // Decimal rendering of counts (Python's f-string formatting of an int)

  function Digit(d: nat): (c: char)
    requires d < 10
    ensures '0' <= c <= '9'
  {
    "0123456789"[d]
  }

  predicate IsDigits(s: string)
  {
    forall k :: 0 <= k < |s| ==> '0' <= s[k] <= '9'
  }

  /** `str(n)` for a non-negative integer: its decimal digits, most significant first. */
  function NatToString(n: nat): (r: string)
    ensures |r| > 0 && IsDigits(r)
    ensures |r| > 1 ==> r[0] != '0'
  {
    if n < 10 then [Digit(n)]
    else
      var prefix := NatToString(n / 10);
      prefix + [Digit(n % 10)]
  }

  /** The number a string of decimal digits denotes. */
  function DecimalValue(s: string): nat
    requires IsDigits(s)
  {
    if |s| == 0 then 0
    else DecimalValue(s[..|s| - 1]) * 10 + (s[|s| - 1] as int - '0' as int)
  }

  /** Reading back a rendered count gives the count: the rendering loses nothing. */
  lemma {:induction false} DecimalRoundTrip(n: nat)
    ensures DecimalValue(NatToString(n)) == n
  {
    var r := NatToString(n);
    if n >= 10 {
      DecimalRoundTrip(n / 10);
      assert r[..|r| - 1] == NatToString(n / 10);
      assert r[|r| - 1] == Digit(n % 10);
    }
    assert "0123456789"[n % 10] as int - '0' as int == n % 10;
  }

  // ---------------------------------------------------------------------------
  // Comma join and split

  /** Python's `",".join(xs)`. */
  function Join(xs: seq<string>): string
  {
    if |xs| == 0 then ""
    else if |xs| == 1 then xs[0]
    else xs[0] + "," + Join(xs[1..])
  }

  /** Python's `s.split(",")`: never empty, one more piece than there are commas. */
  function Split(s: string): (r: seq<string>)
    ensures |r| > 0
    ensures forall k :: 0 <= k < |r| ==> ',' !in r[k]
    decreases |s|
  {
    var i := IndexOf(s, ',');
    if i == -1 then [s] else [s[..i]] + Split(s[i + 1..])
  }

  predicate CommaFree(xs: seq<string>)
  {
    forall k :: 0 <= k < |xs| ==> ',' !in xs[k]
  }

  /** In `a + "," + b` with `a` comma-free, the first comma is the one right after `a`. */
  lemma FirstComma(a: string, b: string)
    requires ',' !in a
    ensures IndexOf(a + "," + b, ',') == |a|
    ensures (a + "," + b)[..|a|] == a && (a + "," + b)[|a| + 1..] == b
  {
    var s := a + "," + b;
    assert s[..|a|] == a;
    assert s[|a| + 1..] == b;
    var r := IndexOf(s, ',');
    assert s[|a|] == ',';
    assert forall k | 0 <= k < |a| :: s[k] == a[k];
  }

  /** A comma-free string splits into itself alone. */
  lemma SplitCommaFree(s: string)
    requires ',' !in s
    ensures Split(s) == [s]
  {
    assert forall k | 0 <= k < |s| :: s[k] != ',';
  }

  /** Splitting a join of comma-free names gives the names back. */
  lemma {:induction false} SplitJoin(xs: seq<string>)
    requires |xs| > 0 && CommaFree(xs)
    ensures Split(Join(xs)) == xs
  {
    if |xs| > 1 {
      FirstComma(xs[0], Join(xs[1..]));
      SplitJoin(xs[1..]);
      assert xs == [xs[0]] + xs[1..];
    }
  }
}

=== FILE: transcript.dfy ===
/**
 * The transcript shown to the user: an ordered list of (role, content) pairs,
 * and the two small operations on it that the responder and the text box use.
 */
module Transcript {
  import opened Wrappers

  datatype Role = User | Assistant

  datatype Entry = Entry(role: Role, content: string)

  type Transcript = seq<Entry>

  /** The role as the Python tuple spells it. */
  function RoleName(r: Role): string
  {
    match r
    case User => "user"
    case Assistant => "assistant"
  }

  /** An entry as the Python tuple `(role, content)`. */
  function AsTuple(e: Entry): seq<string>
  {
    [RoleName(e.role), e.content]
  }

  /** `get_message_content`: the second field of a message tuple, or "" for a shorter tuple. */
  function GetMessageContent(msg: seq<string>): (r: string)
    ensures |msg| >= 2 ==> r == msg[1]
    ensures |msg| < 2 ==> r == ""
  {
    if |msg| > 1 then msg[1] else ""
  }

  /** Reading the content back out of an entry's tuple gives the entry's content. */
  lemma ContentOfEntry(e: Entry)
    ensures GetMessageContent(AsTuple(e)) == e.content
  {
  }

  /** `[msg for msg in chatbot if msg[0] == "user"]`. */
  function UserEntries(t: Transcript): (r: Transcript)
    ensures forall k :: 0 <= k < |r| ==> r[k].role == User
    ensures |r| <= |t|
  {
    if |t| == 0 then []
    else
      var last := t[|t| - 1];
      UserEntries(t[..|t| - 1]) + (if last.role == User then [last] else [])
  }

  /** No entry of `t` has the user role. */
  predicate NoUserEntry(t: Transcript)
  {
    forall i :: 0 <= i < |t| ==> t[i].role != User
  }

  /** `t[i]` is the latest entry with the user role. */
  predicate IsLastUser(t: Transcript, i: int)
  {
    0 <= i < |t| && t[i].role == User && forall j :: i < j < |t| ==> t[j].role != User
  }

  /**
   * The prompt `send_to_gemini` answers: the content of the last user entry,
   * or nothing when the transcript has none.
   */
  function LastUserPrompt(t: Transcript): (r: Option<string>)
  {
    var users := UserEntries(t);
    if |users| == 0 then None else Some(GetMessageContent(AsTuple(users[|users| - 1])))
  }

  /** The filtered list is empty exactly when no entry is a user entry, and otherwise ends with the latest one. */
  lemma {:induction false} UserEntriesEnd(t: Transcript)
    ensures |UserEntries(t)| == 0 <==> NoUserEntry(t)
    ensures |UserEntries(t)| > 0 ==> exists i :: IsLastUser(t, i) && UserEntries(t)[|UserEntries(t)| - 1] == t[i]
  {
    if |t| > 0 {
      var p := t[..|t| - 1];
      UserEntriesEnd(p);
      if t[|t| - 1].role != User {
        if |UserEntries(p)| > 0 {
          var i :| IsLastUser(p, i) && UserEntries(p)[|UserEntries(p)| - 1] == p[i];
          assert IsLastUser(t, i);
        }
        if !NoUserEntry(t) {
          var i :| 0 <= i < |t| && t[i].role == User;
          assert p[i] == t[i];
        }
      } else {
        assert IsLastUser(t, |t| - 1);
      }
    }
  }

  /** The prompt is absent exactly when no entry is a user entry, and otherwise is the content of the latest user entry. */
  lemma LastUserPromptSpec(t: Transcript)
    ensures LastUserPrompt(t).None? <==> NoUserEntry(t)
    ensures LastUserPrompt(t).Some? ==> exists i :: IsLastUser(t, i) && LastUserPrompt(t).value == t[i].content
  {
    UserEntriesEnd(t);
  }

  /** An assistant entry added at the end changes neither whether there is a prompt nor which it is. */
  lemma AssistantEntryKeepsPrompt(t: Transcript, text: string)
    ensures LastUserPrompt(t + [Entry(Assistant, text)]) == LastUserPrompt(t)
  {
    assert (t + [Entry(Assistant, text)])[..|t|] == t;
  }

  /** `user`: append the typed text as a user entry unless it is empty, and clear the text box. */
  function Submit(text: string, t: Transcript): (r: (string, Transcript))
    ensures r.0 == ""
    ensures text == "" ==> r.1 == t
    ensures text != "" ==> |r.1| == |t| + 1 && r.1[..|t|] == t && r.1[|t|] == Entry(User, text)
    ensures text != "" ==> LastUserPrompt(r.1) == Some(text)
  {
    if text != "" then ("", t + [Entry(User, text)]) else ("", t)
  }
}

=== FILE: upload.dfy ===
/**
 * Upload aggregation (`upload_zip`): extract every uploaded artifact, record
 * the non-empty results in the process-wide file store, and append one
 * summary entry to the transcript.
 */
module Upload {
  import opened Wrappers
  import opened Text
  import opened Paths
  import opened Assoc
  import opened Extract
  import opened Transcript

  /** The process-wide store: artifact base name to the files extracted from it. */
  type Store = Assoc<FileSet>

  /** One uploaded artifact: the path it was saved under and what reading that path yields. */
  datatype UploadedFile = UploadedFile(path: string, data: Result<Bytes>)

  datatype Kind = ZipKind | TextKind

  /** An artifact is an archive exactly when its lower-cased extension is `.zip`. */
  function KindOf(path: string): Kind
  {
    if Lower(Ext(Basename(path))) == ".zip" then ZipKind else TextKind
  }

  /** Extraction of one artifact according to its kind; only an unopenable archive fails. */
  function ExtractUpload(f: UploadedFile, codec: Codec): (r: Result<FileSet>)
    ensures r.Failure? ==> KindOf(f.path) == ZipKind
  {
    match KindOf(f.path)
    case ZipKind => ExtractZip(f.data, codec)
    case TextKind => Success(ExtractSingle(f.path, f.data, codec.readText))
  }

  /** The store invariant: unique artifact names, and every artifact holds at least one kept, uniquely named file. */
  predicate WellFormedFileSet(fs: FileSet)
  {
    |fs| > 0 && UniqueKeys(fs) && forall j :: 0 <= j < |fs| ==> Kept(fs[j].0)
  }

  predicate StoreInv(s: Store)
  {
    UniqueKeys(s) && forall i :: 0 <= i < |s| ==> WellFormedFileSet(s[i].1)
  }

  /** What the loop body computes for one uploaded file before touching the store. */
  datatype Artifact = Artifact(name: string, kind: Kind, extraction: Result<FileSet>)

  /** An extraction result has unique, kept names. */
  predicate ArtifactInv(a: Artifact)
  {
    a.extraction.Success? ==>
      UniqueKeys(a.extraction.value) && forall j :: 0 <= j < |a.extraction.value| ==> Kept(a.extraction.value[j].0)
  }

  /** An archive's extraction holds unique names that pass the archive filter. */
  lemma ZipArtifactInv(f: UploadedFile, codec: Codec)
    requires KindOf(f.path) == ZipKind
    ensures ArtifactInv(Artifact(Basename(f.path), ZipKind, ExtractUpload(f, codec)))
  {
    var r := ExtractZip(f.data, codec);
    assert ExtractUpload(f, codec) == r;
    if r.Success? {
      var entries := codec.unzip(f.data.value).value;
      var fs := r.value;
      assert fs == ExtractEntries(entries, codec.decode);
      forall j | 0 <= j < |fs|
        ensures Kept(fs[j].0)
      {
        assert fs[j].0 in Keys(fs);
        ExtractedNames(entries, codec.decode, fs[j].0);
      }
    }
  }

  /** A single file's extraction is empty or one entry under its base name, which passes the archive filter. */
  lemma TextArtifactInv(f: UploadedFile, codec: Codec)
    requires KindOf(f.path) == TextKind
    ensures ArtifactInv(Artifact(Basename(f.path), TextKind, ExtractUpload(f, codec)))
  {
    var fs := ExtractSingle(f.path, f.data, codec.readText);
    assert ExtractUpload(f, codec) == Success(fs);
    SingleKept(f.path, f.data, codec.readText);
  }

  lemma PreparedInv(f: UploadedFile, codec: Codec)
    ensures ArtifactInv(Artifact(Basename(f.path), KindOf(f.path), ExtractUpload(f, codec)))
  {
    if KindOf(f.path) == ZipKind {
      ZipArtifactInv(f, codec);
    } else {
      TextArtifactInv(f, codec);
    }
  }

  /** The base name, kind and extraction of one uploaded file. */
  function Prepare(f: UploadedFile, codec: Codec): (a: Artifact)
    ensures a.name == Basename(f.path) && a.kind == KindOf(f.path)
    ensures a.extraction == ExtractUpload(f, codec)
    ensures ArtifactInv(a)
  {
    PreparedInv(f, codec);
    Artifact(Basename(f.path), KindOf(f.path), ExtractUpload(f, codec))
  }

  /** `Prepare` over the whole upload, in order. */
  function PrepareAll(files: seq<UploadedFile>, codec: Codec): (r: seq<Artifact>)
    ensures |r| == |files|
    ensures AllArtifactsInv(r)
    ensures forall i :: 0 <= i < |files| ==> r[i].name == Basename(files[i].path) && r[i].kind == KindOf(files[i].path)
    ensures forall i :: 0 <= i < |files| ==> r[i].extraction == ExtractUpload(files[i], codec)
  {
    seq(|files|, i requires 0 <= i < |files| => Prepare(files[i], codec))
  }

  predicate AllArtifactsInv(arts: seq<Artifact>)
  {
    forall i :: 0 <= i < |arts| ==> ArtifactInv(arts[i])
  }

  // ---------------------------------------------------------------------------
  // Ingesting a batch

  /** The state of the loop over the uploaded files, or the exception that ended it. */
  datatype Ingest =
    | Ingested(store: Store, processed: nat, extracted: nat, kinds: set<Kind>)
    | Interrupted(store: Store, cause: string)

  /** An artifact whose extraction succeeded and found at least one file, so it is written to the store. */
  predicate Stored(a: Artifact)
  {
    a.extraction.Success? && |a.extraction.value| > 0
  }

  lemma PutKeepsInv(s: Store, name: string, fs: FileSet)
    requires StoreInv(s) && WellFormedFileSet(fs)
    ensures StoreInv(Put(s, name, fs))
  {
    var s' := Put(s, name, fs);
    PutUnique(s, name, fs);
    forall i | 0 <= i < |s'|
      ensures WellFormedFileSet(s'[i].1)
    {
      GetAt(s', i);
      PutGet(s, name, fs, s'[i].0);
      if s'[i].0 != name {
        var k :| 0 <= k < |s| && s[k] == (s'[i].0, s'[i].1);
      }
    }
  }

  /**
   * The loop over the uploaded files: each non-empty extraction is written
   * under the artifact's base name, replacing (not merging with) an earlier
   * entry of that name; an unopenable archive raises and ends the loop,
   * keeping the writes already made.
   */
  function IngestAll(store: Store, arts: seq<Artifact>): (r: Ingest)
    requires UniqueKeys(store)
    ensures UniqueKeys(r.store)
  {
    if |arts| == 0 then Ingested(store, 0, 0, {})
    else
      var a := arts[|arts| - 1];
      match IngestAll(store, arts[..|arts| - 1])
      case Interrupted(s, cause) => Interrupted(s, cause)
      case Ingested(s, processed, extracted, kinds) =>
        match a.extraction
        case Failure(cause) => Interrupted(s, cause)
        case Success(fs) =>
          if |fs| > 0 then
            PutUnique(s, a.name, fs);
            Ingested(Put(s, a.name, fs), processed + 1, extracted + |fs|, kinds + {a.kind})
          else
            Ingested(s, processed + 1, extracted, kinds + {a.kind})
  }

  /** Ingesting prepared artifacts keeps the store invariant. */
  lemma {:induction false} IngestKeepsInv(store: Store, arts: seq<Artifact>)
    requires StoreInv(store) && AllArtifactsInv(arts)
    ensures StoreInv(IngestAll(store, arts).store)
  {
    if |arts| > 0 {
      var p := arts[..|arts| - 1];
      var a := arts[|arts| - 1];
      assert AllArtifactsInv(p) && ArtifactInv(a);
      IngestKeepsInv(store, p);
      var ing := IngestAll(store, p);
      if ing.Ingested? && a.extraction.Success? && |a.extraction.value| > 0 {
        PutKeepsInv(ing.store, a.name, a.extraction.value);
      }
    }
  }

  /** Number of files an extraction found (0 when it failed). */
  function FoundCount(a: Artifact): nat
  {
    match a.extraction
    case Success(fs) => |fs|
    case Failure(_) => 0
  }

  /** Sum of `FoundCount` over the artifacts, counted front to back. */
  function TotalFound(arts: seq<Artifact>): nat
  {
    if |arts| == 0 then 0 else FoundCount(arts[0]) + TotalFound(arts[1..])
  }

  lemma {:induction false} TotalFoundSnoc(arts: seq<Artifact>)
    requires |arts| > 0
    ensures TotalFound(arts) == TotalFound(arts[..|arts| - 1]) + FoundCount(arts[|arts| - 1])
  {
    if |arts| > 1 {
      assert arts[1..][..|arts| - 2] == arts[..|arts| - 1][1..];
      TotalFoundSnoc(arts[1..]);
    }
  }

  /** The kinds of the given artifacts. */
  function KindsOf(arts: seq<Artifact>): set<Kind>
  {
    set i | 0 <= i < |arts| :: arts[i].kind
  }

  /** Every artifact of the batch opened. */
  predicate AllOpen(arts: seq<Artifact>)
  {
    forall i :: 0 <= i < |arts| ==> arts[i].extraction.Success?
  }

  /** The loop runs to the end exactly when every artifact opens. */
  lemma {:induction false} IngestOpen(store: Store, arts: seq<Artifact>)
    requires UniqueKeys(store)
    ensures IngestAll(store, arts).Ingested? <==> AllOpen(arts)
  {
    if |arts| > 0 {
      var p := arts[..|arts| - 1];
      var a := arts[|arts| - 1];
      IngestOpen(store, p);
      assert AllOpen(arts) <==> AllOpen(p) && a.extraction.Success? by {
        assert forall i :: 0 <= i < |p| ==> p[i] == arts[i];
      }
      assert IngestAll(store, arts).Ingested? <==> IngestAll(store, p).Ingested? && a.extraction.Success?;
    }
  }

  /** A completed loop has processed every file and counted every extracted file. */
  lemma {:induction false} IngestTallies(store: Store, arts: seq<Artifact>)
    requires UniqueKeys(store)
    requires IngestAll(store, arts).Ingested?
    ensures IngestAll(store, arts).processed == |arts|
    ensures IngestAll(store, arts).extracted == TotalFound(arts)
  {
    if |arts| > 0 {
      var p := arts[..|arts| - 1];
      IngestTallies(store, p);
      TotalFoundSnoc(arts);
    }
  }

  /** A completed loop has seen the kind of every file. */
  lemma {:induction false} IngestKinds(store: Store, arts: seq<Artifact>)
    requires UniqueKeys(store)
    requires IngestAll(store, arts).Ingested?
    ensures IngestAll(store, arts).kinds == KindsOf(arts)
  {
    if |arts| > 0 {
      var p := arts[..|arts| - 1];
      var a := arts[|arts| - 1];
      IngestKinds(store, p);
      assert KindsOf(arts) == KindsOf(p) + {a.kind} by {
        forall k | k in KindsOf(arts) ensures k in KindsOf(p) + {a.kind} {
          var i :| 0 <= i < |arts| && arts[i].kind == k;
          if i < |p| { assert k == p[i].kind; }
        }
        forall k | k in KindsOf(p) ensures k in KindsOf(arts) {
          var i :| 0 <= i < |p| && p[i].kind == k;
          assert arts[i] == p[i];
        }
        assert a.kind == arts[|arts| - 1].kind;
      }
    }
  }

  /**
   * The loop runs to the end exactly when every artifact opens, and then it
   * has processed every file, counted every extracted file and seen every kind.
   */
  lemma IngestCounts(store: Store, arts: seq<Artifact>)
    requires UniqueKeys(store)
    ensures IngestAll(store, arts).Ingested? <==> AllOpen(arts)
    ensures IngestAll(store, arts).Ingested? ==>
              && IngestAll(store, arts).processed == |arts|
              && IngestAll(store, arts).extracted == TotalFound(arts)
              && IngestAll(store, arts).kinds == KindsOf(arts)
  {
    IngestOpen(store, arts);
    if IngestAll(store, arts).Ingested? {
      IngestTallies(store, arts);
      IngestKinds(store, arts);
    }
  }

  /** No artifact after position `i` is stored under the same name. */
  predicate LastStoredWithName(arts: seq<Artifact>, i: int)
    requires 0 <= i < |arts|
  {
    forall j | i < j < |arts| :: Stored(arts[j]) ==> arts[j].name != arts[i].name
  }

  /** Some artifact is stored under name `n`. */
  predicate SomeStoredAs(arts: seq<Artifact>, n: string)
  {
    exists i | 0 <= i < |arts| :: Stored(arts[i]) && arts[i].name == n
  }

  /** Replace, not merge: a completed batch leaves under each name exactly the last non-empty extraction uploaded under it. */
  lemma {:induction false} IngestLastWriteWins(store: Store, arts: seq<Artifact>, i: int)
    requires UniqueKeys(store)
    requires IngestAll(store, arts).Ingested?
    requires 0 <= i < |arts| && Stored(arts[i]) && LastStoredWithName(arts, i)
    ensures Get(IngestAll(store, arts).store, arts[i].name) == Some(arts[i].extraction.value)
  {
    var p := arts[..|arts| - 1];
    var a := arts[|arts| - 1];
    var s := IngestAll(store, p).store;
    if i == |p| {
      PutGet(s, a.name, a.extraction.value, a.name);
    } else {
      assert p[i] == arts[i];
      assert LastStoredWithName(p, i) by {
        forall j | i < j < |p| ensures Stored(p[j]) ==> p[j].name != p[i].name {
          assert p[j] == arts[j];
        }
      }
      IngestLastWriteWins(store, p, i);
      if Stored(a) {
        PutGet(s, a.name, a.extraction.value, arts[i].name);
      }
    }
  }

  /** A name no artifact of a completed batch was stored under keeps its previous entry (or absence). */
  lemma {:induction false} IngestLeavesOthers(store: Store, arts: seq<Artifact>, n: string)
    requires UniqueKeys(store)
    requires IngestAll(store, arts).Ingested?
    requires !SomeStoredAs(arts, n)
    ensures Get(IngestAll(store, arts).store, n) == Get(store, n)
  {
    if |arts| > 0 {
      var p := arts[..|arts| - 1];
      var a := arts[|arts| - 1];
      assert !SomeStoredAs(p, n) by {
        forall i | 0 <= i < |p|
          ensures !(Stored(p[i]) && p[i].name == n)
        {
          assert arts[i] == p[i];
        }
      }
      IngestLeavesOthers(store, p, n);
      if Stored(a) {
        assert a.name != n;
        PutGet(IngestAll(store, p).store, a.name, a.extraction.value, n);
      }
    }
  }

  /**
   * An interrupted batch stopped at the first artifact that did not open, and
   * the store keeps exactly what the artifacts before it wrote.
   */
  lemma {:induction false} IngestInterrupted(store: Store, arts: seq<Artifact>)
    requires UniqueKeys(store)
    requires IngestAll(store, arts).Interrupted?
    ensures exists k | 0 <= k < |arts| ::
              && arts[k].extraction.Failure?
              && AllOpen(arts[..k])
              && IngestAll(store, arts) == Interrupted(IngestAll(store, arts[..k]).store, arts[k].extraction.error)
  {
    var p := arts[..|arts| - 1];
    if IngestAll(store, p).Interrupted? {
      IngestInterrupted(store, p);
      var k :| 0 <= k < |p| && p[k].extraction.Failure? && AllOpen(p[..k])
               && IngestAll(store, p) == Interrupted(IngestAll(store, p[..k]).store, p[k].extraction.error);
      assert p[..k] == arts[..k] && p[k] == arts[k];
    } else {
      IngestOpen(store, p);
      var k := |arts| - 1;
      assert arts[..k] == p;
    }
  }

  // ---------------------------------------------------------------------------
  // The summary entry

  datatype BatchLabel = Mixed | ZipOnly | TextOnly

  /** What the one user entry appended by an upload reports. */
  datatype Summary =
    | SingleEmpty(kind: Kind, filename: string)
    | SingleExtracted(kind: Kind, filename: string, names: seq<string>)
    | Batch(kindLabel: BatchLabel, processed: nat, extracted: nat, uploaded: seq<string>)

  /** A set of kinds has more than one member exactly when both kinds are in it. */
  lemma KindsCardinality(kinds: set<Kind>)
    ensures |kinds| > 1 <==> ZipKind in kinds && TextKind in kinds
  {
    assert kinds <= {ZipKind, TextKind} by {
      forall k | k in kinds ensures k in {ZipKind, TextKind} {
        if k.ZipKind? { assert k == ZipKind; } else { assert k == TextKind; }
      }
    }
    if ZipKind !in kinds {
      if TextKind in kinds { assert kinds == {TextKind}; } else { assert kinds == {}; }
    } else if TextKind !in kinds {
      assert kinds == {ZipKind};
    } else {
      assert kinds == {ZipKind, TextKind};
    }
  }

  /** The label of a batch: "files" when both kinds were uploaded, else the one kind. */
  function LabelOf(kinds: set<Kind>): (l: BatchLabel)
    requires kinds != {}
    ensures l == Mixed <==> ZipKind in kinds && TextKind in kinds
    ensures l == ZipOnly <==> ZipKind in kinds && TextKind !in kinds
  {
    KindsCardinality(kinds);
    if |kinds| > 1 then Mixed
    else if ZipKind in kinds then ZipOnly
    else TextOnly
  }

  function KindText(k: Kind): string
  {
    match k
    case ZipKind => "\U{1F4E6} ZIP file"
    case TextKind => "\U{1F4C4} File"
  }

  function LabelText(l: BatchLabel): string
  {
    match l
    case Mixed => "files"
    case ZipOnly => "ZIP files"
    case TextOnly => "text files"
  }

  /** `"\n".join(f"- {x}" for x in xs)`. */
  function Bullets(xs: seq<string>): string
  {
    if |xs| == 0 then ""
    else if |xs| == 1 then "- " + xs[0]
    else "- " + xs[0] + "\n" + Bullets(xs[1..])
  }

  /** The HTML text of the summary entry. */
  function Render(s: Summary): string
  {
    match s
    case SingleEmpty(k, name) =>
      "<p>" + KindText(k) + " uploaded: " + name
      + ", but no text content was found or the file format is not supported.</p>"
    case SingleExtracted(k, name, names) =>
      "<p>" + KindText(k) + " uploaded: " + name
      + "</p><p>Extracted " + NatToString(|names|) + " text file(s):</p><pre>" + Bullets(names) + "</pre>"
    case Batch(l, processed, extracted, uploaded) =>
      BatchHead(l) + BatchTail(processed, extracted, uploaded)
  }

  /** The opening of a batch summary, up to the word "uploaded". */
  function BatchHead(l: BatchLabel): string
  {
    "<p>\U{1F4DA} Multiple " + LabelText(l) + " uploaded"
  }

  /** The rest of a batch summary: the counts and the bullet list of uploaded names. */
  function BatchTail(processed: nat, extracted: nat, uploaded: seq<string>): string
  {
    " (" + NatToString(processed) + " files)</p><p>Extracted " + NatToString(extracted)
    + " text file(s) in total</p>" + "<p>Uploaded files:</p><pre>" + Bullets(uploaded) + "</pre>"
  }

  // ---------------------------------------------------------------------------
  // upload_zip

  /** What `upload_zip` leaves behind: the store and the summary it appends, or the exception that escaped. */
  datatype UploadOutcome =
    | Uploaded(store: Store, summary: Option<Summary>)
    | Failed(store: Store, cause: string)

  /** The names of the artifacts, in upload order. */
  function Names(arts: seq<Artifact>): (r: seq<string>)
    ensures |r| == |arts|
    ensures forall i :: 0 <= i < |arts| ==> r[i] == arts[i].name
  {
    if |arts| == 0 then [] else [arts[0].name] + Names(arts[1..])
  }

  /** The summary of a completed batch: per-artifact for one file, combined for two or more. */
  function SummaryOf(arts: seq<Artifact>, ing: Ingest): Summary
    requires |arts| > 0 && ing.Ingested? && ing.kinds != {}
    requires |arts| == 1 ==> arts[0].extraction.Success?
  {
    if |arts| > 1 then Batch(LabelOf(ing.kinds), ing.processed, ing.extracted, Names(arts))
    else
      var fs := arts[0].extraction.value;
      if |fs| == 0 then SingleEmpty(arts[0].kind, arts[0].name)
      else SingleExtracted(arts[0].kind, arts[0].name, Keys(fs))
  }

  /**
   * `upload_zip` once every file has been prepared: no files change nothing;
   * otherwise the batch is ingested and, unless an archive failed to open,
   * summarised.
   */
  function UploadArtifacts(store: Store, arts: seq<Artifact>): (r: UploadOutcome)
    requires StoreInv(store) && AllArtifactsInv(arts)
    ensures StoreInv(r.store)
    ensures |arts| == 0 ==> r == Uploaded(store, None)
    ensures r.Failed? <==> !AllOpen(arts)
    ensures r.Uploaded? && |arts| > 0 ==> r.summary.Some?
  {
    if |arts| == 0 then Uploaded(store, None)
    else
      var ing := IngestAll(store, arts);
      IngestCounts(store, arts);
      IngestKeepsInv(store, arts);
      if ing.Interrupted? then Failed(ing.store, ing.cause)
      else
        assert arts[0].kind in KindsOf(arts);
        Uploaded(ing.store, Some(SummaryOf(arts, ing)))
  }

  /** `upload_zip` on the uploaded files themselves. */
  function UploadFiles(store: Store, files: seq<UploadedFile>, codec: Codec): (r: UploadOutcome)
    requires StoreInv(store)
    ensures StoreInv(r.store)
    ensures |files| == 0 ==> r == Uploaded(store, None)
    ensures r.Failed? <==> exists i | 0 <= i < |files| :: ExtractUpload(files[i], codec).Failure?
  {
    var arts := PrepareAll(files, codec);
    assert AllOpen(arts) <==> forall i | 0 <= i < |files| :: ExtractUpload(files[i], codec).Success?;
    UploadArtifacts(store, arts)
  }

  /** The transcript after an upload: one user entry holding the rendered summary, or unchanged when there is none. */
  function Announce(t: Transcript, summary: Option<Summary>): (r: Transcript)
    ensures summary.None? ==> r == t
    ensures summary.Some? ==> |r| == |t| + 1 && r[..|t|] == t && r[|t|] == Entry(User, Render(summary.value))
  {
    match summary
    case None => t
    case Some(s) => t + [Entry(User, Render(s))]
  }

  /** A completed upload stores what the batch loop stored and reports its summary. */
  lemma UploadedShape(store: Store, arts: seq<Artifact>)
    requires StoreInv(store) && AllArtifactsInv(arts) && |arts| > 0
    requires UploadArtifacts(store, arts).Uploaded?
    ensures IngestAll(store, arts).Ingested? && AllOpen(arts)
    ensures UploadArtifacts(store, arts).store == IngestAll(store, arts).store
    ensures UploadArtifacts(store, arts).summary == Some(SummaryOf(arts, IngestAll(store, arts)))
  {
    IngestCounts(store, arts);
    assert arts[0].kind in KindsOf(arts);
  }

  /**
   * Two or more files: the summary counts every file as processed, adds up the
   * sizes of all extraction results and lists every base name.
   */
  lemma BatchSummaryCounts(store: Store, arts: seq<Artifact>)
    requires StoreInv(store) && AllArtifactsInv(arts) && |arts| > 1
    requires UploadArtifacts(store, arts).Uploaded?
    ensures UploadArtifacts(store, arts).summary.Some?
    ensures var s := UploadArtifacts(store, arts).summary.value;
      && s.Batch?
      && s.processed == |arts|
      && s.extracted == TotalFound(arts)
      && s.uploaded == Names(arts)
  {
    UploadedShape(store, arts);
    IngestCounts(store, arts);
  }

  /** Two or more files: the summary says "files" only when archives and other files were mixed, else names the one kind. */
  lemma BatchSummaryLabel(store: Store, arts: seq<Artifact>)
    requires StoreInv(store) && AllArtifactsInv(arts) && |arts| > 1
    requires UploadArtifacts(store, arts).Uploaded?
    ensures UploadArtifacts(store, arts).summary.Some?
    ensures var s := UploadArtifacts(store, arts).summary.value;
      && s.Batch?
      && (s.kindLabel == Mixed <==> ZipKind in KindsOf(arts) && TextKind in KindsOf(arts))
      && (s.kindLabel == ZipOnly <==> ZipKind in KindsOf(arts) && TextKind !in KindsOf(arts))
  {
    UploadedShape(store, arts);
    IngestCounts(store, arts);
  }

  /** The store after ingesting one artifact that opened. */
  lemma IngestOne(store: Store, a: Artifact)
    requires UniqueKeys(store) && a.extraction.Success?
    ensures IngestAll(store, [a]).store
            == if |a.extraction.value| == 0 then store else Put(store, a.name, a.extraction.value)
  {
    assert [a][..0] == [];
  }

  /**
   * One file: the summary names the artifact and its kind, and reports no
   * content exactly when the extraction was empty.
   */
  lemma SingleSummary(store: Store, a: Artifact)
    requires StoreInv(store) && ArtifactInv(a)
    requires UploadArtifacts(store, [a]).Uploaded?
    ensures a.extraction.Success?
    ensures UploadArtifacts(store, [a]).summary.Some?
    ensures var s := UploadArtifacts(store, [a]).summary.value;
      && !s.Batch?
      && s.kind == a.kind
      && s.filename == a.name
      && (s.SingleEmpty? <==> |a.extraction.value| == 0)
      && (s.SingleExtracted? ==> s.names == Keys(a.extraction.value))
  {
    var arts := [a];
    UploadedShape(store, arts);
    assert arts[0] == a;
  }

  /** One file: only a non-empty extraction is stored, replacing any earlier entry of that name. */
  lemma SingleStore(store: Store, a: Artifact)
    requires StoreInv(store) && ArtifactInv(a)
    requires UploadArtifacts(store, [a]).Uploaded?
    ensures a.extraction.Success?
    ensures UploadArtifacts(store, [a]).store
            == if |a.extraction.value| == 0 then store else Put(store, a.name, a.extraction.value)
  {
    var arts := [a];
    UploadedShape(store, arts);
    assert arts[0] == a;
    IngestOne(store, a);
  }
}

=== FILE: wrappers.dfy ===
/** Option and Result, the two failure-carrying shapes the model needs. */
module Wrappers {

  /** A value that may be absent (Python's `None`). */
  datatype Option<+T> = None | Some(value: T)

  /** Either a value or the message of the exception that replaced it. */
  datatype Result<+T> = Success(value: T) | Failure(error: string)
}
